=== FILE: README.md ===
# ytls in Dafny

`ytls.py` is a terminal client that lists the latest uploads of a set of
YouTube channels. This project models its decision logic as pure Dafny
functions and proves properties of them:

- **Subscriptions.** Parsing `subscriptions.txt`: comment lines are dropped,
  and ` #` starts a trailing comment.
- **Channels.** Classifying a subscription entry. A 24-character `UC…` id is
  used as is, with its uploads playlist `UU…`. Any other entry is resolved
  through `YouTubeAPI.get_id_of_channel`, which memoises username→ids in
  `channel_cache.pkl`.
- **Uploads.** `YouTubeAPI.get_latest_uploads_from_channel`. The uploads of a
  channel are cached in one pickle file per username and four-hour bucket of
  the day: the date followed by `hour // 4`.
- **Videos.** `get_videos`: per subscription, in order, the first N `snippet`s
  of its uploads. It threads a `World` through the run. The world is the
  in-memory memo plus the cache directory, modelled as a map from file name
  to "loads to a value" or "raises `EOFError`".
- **Listing.** `Actions.list` / `list_videos`. The listing gives the index
  column one column per digit of the video count and fits the title into
  what is left of the terminal. It can skip watched videos (`hide`).
- **Commands.** The interactive action commands: `d N`, `o N`, `w N` and
  `a N F`. This covers which lines the grammar accepts, the audio-format
  default and normalisation, skipping out-of-range indices, and what opening
  or watching a video does to the viewed set.

The Python built-ins these rely on are written out with Python's semantics in
`PyStr`: `strip`, `split`, `split(sep)[0]`, `str(n)`, `int`, `ljust`, `' ' * n`
and slicing. Whitespace is the `str.isspace()` set, which is also what the
regular expressions' `\s` matches.

The remote API is an opaque `Client` value with two total functions, one per
request kind. The clock is a `Clock(date, hour)` input. Every request sent and
every file written is returned as a log, so the contracts can say "no
request", "exactly one write" and "nothing else changes".

Some behaviour of the code is easy to misread, and the model keeps it as
written:

- An upload bucket file that loads to an empty list is a cache hit. The code
  tests `uploads is None`, not falsiness (ytls.py:171-183).
- The upload cache file name carries the username that was asked for, not the
  resolved channel id (ytls.py:167-169).
- There is a single four-hour bucket granularity. No call forces a refresh.
- Every uploads request asks for `maxResults=25`. The per-channel display
  limit is applied afterwards, by `get_videos`.
- A readable id cache without the username, and a missing id cache, both cost
  one request. With no cache file the request is sent even when the in-memory
  memo already has the username (ytls.py:124-126). An `EOFError` on the id
  cache is not recovered: the lookup raises.
- A response without the fields the client reads raises: a channel lookup
  (ytls.py:141-143) and an uploads fetch (ytls.py:196) alike. The request has
  been sent, and nothing has been written for it.

## Model

| member | source | states |
|---|---|---|
| Store.Save | ytls.py:147-149 | After a `pickle.dump` the file loads to exactly the value written, every other file loads as before, and the directory gains only that name. |
| Api.QueriesBefore | ytls.py:128-143 | The errors raised after a request was sent are a failed channel resolution and a failed uploads fetch. Each has sent exactly one request: `channels.list` for that username, or `playlistItems.list` for that playlist with 25 results. The missing-argument and corrupt-cache errors have sent none. |
| PyStr.Strip | ytls.py:349 | `strip()` yields one contiguous piece of the line that keeps every non-whitespace character and neither starts nor ends with whitespace. |
| PyStr.StripOfTrimmed | ytls.py:349 | A string without surrounding whitespace is its own `strip()`. |
| PyStr.StripIdempotent | ytls.py:349 | Stripping twice is stripping once. |
| PyStr.SplitHead | ytls.py:349 | `split(' #')[0]` is the prefix of the line before the first ` #`: no ` #` starts inside it, and it is either the whole line or followed by ` #`. |
| PyStr.Words | ytls.py:444 | Every element of `split()` is a non-empty run without whitespace. |
| PyStr.WordsOfInterleave | ytls.py:444 | `split()` in general gives back exactly the words, in order, for words separated by non-empty runs of any whitespace (tabs and no-break spaces included) with any whitespace before and after. |
| PyStr.WordsOfJoin | ytls.py:444 | `split()` recovers the words joined with single spaces. |
| PyStr.JoinSpaceSingleSpaced | ytls.py:443 | Words joined with single spaces have exactly one whitespace character between words and none around them, the shape the command patterns require. |
| PyStr.NatToString | ytls.py:164 | `str(n)` is a non-empty run of ASCII digits without a leading zero, one character long exactly when `n < 10`. |
| PyStr.DigitsValueOfNatToString | ytls.py:456 | `int(str(n)) == n`. |
| PyStr.NatToStringLengthMonotone | ytls.py:276 | A larger count never has fewer digits, so every index fits the index column. |
| PyStr.Spaces | ytls.py:295 | `' ' * n` is `n` spaces, or empty when `n` is not positive. |
| PyStr.Ljust | ytls.py:311 | `ljust(width)` keeps the string as its prefix and pads it with spaces up to `width`, never shortening it. |
| PyStr.SliceTo | ytls.py:293 | `title[:m]` is a prefix of the title: `m` characters when `0 <= m <= len`, all of it beyond, and `m` from the end when `m` is negative. |
| PyStr.Slice | ytls.py:214-215 | `publishedAt[i:j]` is the slice when the bounds fit. An end past the string clamps to `s[i:]`. An empty range or a start past the end gives `""`. It is never longer than the string. |
| Subscriptions.CleanLineShape | ytls.py:349 | A cleaned line is no longer than the line, has no surrounding whitespace and no ` #`. A blank line cleans to `""`. Any other line that is not a comment cleans to a handle that starts with the line's first non-blank character. |
| Subscriptions.Kept | ytls.py:349-351 | One line contributes at most one entry, and what it contributes is a handle. It contributes nothing if and only if it is a comment line. |
| Subscriptions.ParseSubscriptions | ytls.py:348-352 | The parser never yields more entries than lines, and every entry is trimmed, free of ` #` and does not start with `#`. |
| Subscriptions.ParseSubscriptionsIsFilterMap | ytls.py:348-352 | The parser is exactly "drop the comment lines, then clean each remaining line", in file order. |
| Subscriptions.ParseSubscriptionsSkipsComment | ytls.py:351 | A comment line anywhere in the file contributes nothing: removing it leaves the entries unchanged. |
| Subscriptions.ParseSubscriptionsAppend | ytls.py:350 | Parsing is line by line: the entries of two files concatenated are the first file's followed by the second's. |
| Subscriptions.FlatMapOfSingletons | ytls.py:349-350 | When every line yields exactly one entry, the `i`-th entry comes from the `i`-th line. |
| Subscriptions.ParseSubscriptionsWithoutComments | ytls.py:349-351 | A file without comment lines yields one entry per line, in order: the `i`-th entry is the `i`-th line cleaned. |
| Subscriptions.CleanLineOfHandle | ytls.py:349-351 | A handle is not a comment line, and cleaning it gives it back unchanged. |
| Subscriptions.ParseSubscriptionsIdempotent | ytls.py:348-352 | Writing the parsed entries back one per line and parsing again gives the same entries. |
| Channels.ClassifyHandle | ytls.py:320-323 | An entry is a literal id exactly when it has 24 characters and starts with `UC`. A literal's channel id is the entry itself, and its uploads id is also 24 long and differs only in the prefix `UU`. Any other entry is a username to resolve. |
| Channels.GetIdOfChannel | ytls.py:108-153 | A readable cache that has the username answers with no request and no write. A corrupt cache raises. A miss sends one `channels.list(forUsername)`. A miss is a readable cache without the username, or no cache file at all, whatever the in-memory memo holds. A miss either raises on an unusable response, writing nothing, or adds exactly that username to the consulted map and writes the whole map once. On success the file holds the returned ids and every consulted entry. |
| Channels.RepeatLookupHits | ytls.py:117-126 | After a successful lookup, looking the same username up again answers from the file, whatever the API would now say, with no request and no write. |
| Channels.MissKeepsOtherEntries | ytls.py:145-149 | A miss leaves every other username's entry unchanged. |
| Uploads.BucketKey | ytls.py:163-165 | The key is the date followed by a single digit `0`-`5` whose value is `hour // 4`. |
| Uploads.BucketKeySameSlot | ytls.py:163-165 | Two clock readings give the same key if and only if they have the same date and the same four-hour slot. |
| Uploads.UploadCachePath | ytls.py:167-169 | The bucket file name is never the id-cache file name, and its length is the username's and key's plus the fixed affixes. |
| Uploads.UploadCachePathInjective | ytls.py:167-169 | For a fixed username the file name determines the bucket, and for a fixed bucket it determines the username. |
| Uploads.GetLatestUploads | ytls.py:155-201 | The call raises `missing expected kwargs` if and only if an argument is `None`. A bucket file that loads, even to an empty list, is returned with no request and no write. Otherwise there is exactly one `playlistItems.list(uploads_id, 25)`. The call raises if and only if the response has no `items`. Otherwise those items are returned and written to that one file only. |
| Uploads.RepeatFetchHits | ytls.py:171-183 | A second call in the same bucket returns the first call's uploads, whatever the API would now say, with no request and no write. |
| Videos.TakeFirst | ytls.py:331-338 | The counting loop yields exactly the `snippet`s of the first `min(limit, len)` items, in order. With a negative limit it yields every item. |
| Videos.ResolveIds | ytls.py:320-323 | A literal id touches neither cache nor API. Any other entry gets exactly `get_id_of_channel`'s outcome, and the upload cache is left alone. |
| Videos.GetVideos | ytls.py:318-338 | With a non-negative limit, a run yields at most `limit * len(subscriptions)` snippets in all. |
| Videos.LiteralIdsSkipLookup | ytls.py:320-323 | A subscription list of literal ids sends only uploads requests and leaves the memo and id cache as they were. The only exception it can end with is an uploads response without `items`. |
| Videos.UploadsFailureWritesNothing | ytls.py:183-199 | An uploads response without `items` ends the run there. That request was sent, nothing is yielded for the subscription, and the upload cache is as the run found it. |
| Videos.GetVideosGrows | ytls.py:318-329 | A run never loses a cached bucket file or an entry of a readable id cache. |
| Videos.GetVideosWarms | ytls.py:318-329 | After a run that ends normally, every subscription can be served from the cache at the same clock reading. |
| Videos.GetVideosFromCache | ytls.py:325-338 | What a normal run yields is exactly what the cache it leaves behind holds for its subscriptions. |
| Videos.WarmRunIsQuiet | ytls.py:318-338 | Over a warm cache a run sends no request, writes nothing, leaves both caches unchanged and yields the cached snippets. |
| Videos.SecondRunReplays | ytls.py:318-338 | A second run in the same bucket, in the same or a fresh process and whatever the API would now say, lists the same videos with no request and no write. |
| Listing.IndexField | ytls.py:311 | The index field is the index's digits followed only by spaces, at least one. For every index of the list it is exactly one wider than the index column. |
| Listing.TitleFieldLayout | ytls.py:292-297 | With colour on and room left, the title field is always `max + 3` wide. A title that fits is kept whole and followed only by spaces. A longer one, with room `max >= 0`, is cut to `max` characters and ends `… `. Without colour a fitting title is framed by one space each side. |
| Listing.LineFillsTerminal | ytls.py:276-315 | With colour on and a non-negative title room, every listed line is exactly `cols` characters (code points) plus the newline, however long the title. |
| Listing.LineStartsWithIndex | ytls.py:311 | Every line starts with the index the action commands take for that video. |
| Listing.ListEntry | ytls.py:266-269 | A video prints nothing if and only if it is viewed while hiding; otherwise it prints its line. |
| Listing.ShownFrom | ytls.py:341-343 | The listed indices are in range and never those of hidden videos. |
| Listing.ListVideos | ytls.py:341-343 | Each printed line is the entry of its own video under that video's own index. |
| Listing.ShownFromMembers | ytls.py:268-269 | An index is listed if and only if it is in range and its video is not hidden. |
| Listing.ShownFromIncreasing | ytls.py:342-343 | The list keeps the order of the videos. |
| Listing.ShownFromAll | ytls.py:342-343 | Without hiding, every video is listed and the `k`-th line is video `k`. |
| Listing.ShownFromCount | ytls.py:268-269 | While hiding, there is one line per video not yet viewed. |
| Commands.ParseCommandWith | ytls.py:443-456 | An accepted line is single-spaced with at least one index. Its first word is an accepted verb, or `a`/`audio` for an audio command. |
| Commands.AcceptedShape | ytls.py:443-456 | Every accepted line has one of two shapes. The first is a verb and digit words only, meaning the verb's action, or for `a`/`audio` the `mp3` rip, on each word's `int` in typed order. The second is `a`/`audio`, digit words, then one letters-and-digits word, meaning a rip in that format of the words before it. Any other line, such as `o abc`, `w 1x` or `a 1 mp-3`, is ignored. |
| Commands.NonIndexWordIgnored | ytls.py:443-454 | A word after the verb that is not a digit run makes the line ignored, unless it is the final letters-and-digits format word of an audio command. |
| Commands.VerbCommandAccepted | ytls.py:443-444 | Conversely, any single-spaced line of an accepted verb followed by digit words is accepted. It means that verb's action on each word's `int`, in typed order. |
| Commands.ParseJoinedVerbCommand | ytls.py:443-444 | A verb and digit words joined with single spaces are accepted as that verb's action on each word's `int`. |
| Commands.LongDownloadVerb | ytls.py:443-456 | As written, `download 3 01` downloads videos 3 and 1. |
| Commands.ParseRenderWith | ytls.py:443-456 | Under any verb set that contains the command's short verb, every command with at least one index, typed as the help text shows it, is parsed back to itself. For audio the format must be a letters-and-digits word that is not all digits. |
| Commands.ParseRenderAsWritten | ytls.py:443-456 | By the grammar as written, every such open, watched and rip-audio command is parsed back to itself. |
| Commands.ParseRender | ytls.py:443-456 | By the corrected grammar, which accepts `d`, every such command, downloads included, is parsed back to itself. |
| Commands.DownloadRenderRejectedAsWritten | ytls.py:443 | The help text's `d N` form of any download command is ignored by the pattern as written, and accepted by the corrected one. |
| Commands.BareDownloadVerb | ytls.py:400 | `d 0` does nothing as written, and downloads video 0 once corrected. |
| Commands.AudioWithIndicesOnly | ytls.py:446-448 | `a` with only indices rips `mp3`, and every trailing digit run is an index. |
| Commands.AudioWithFormat | ytls.py:450-451 | With a trailing token that has a letter, that token is the format and every word in between is an index. |
| Commands.NormalizeFormat | ytls.py:237-240 | The format used is always one of the seven known formats. A known format is kept, and anything else becomes `mp3`. |
| Commands.NormalizeFormatIdempotent | ytls.py:237-240 | Normalising twice is normalising once. |
| Commands.InRange | ytls.py:458-460 | The indices acted on are exactly the typed ones below the video count. |
| Commands.InRangeAppend | ytls.py:458-460 | The filter works index by index: the in-range part of two typed lists is the in-range part of each, in order. |
| Commands.InRangeSingle | ytls.py:458-460 | One typed index is kept, once, exactly when it is below the video count. With `InRangeAppend` this fixes the typed order and keeps repeats. |
| Commands.IndexWordsRoundTrip | ytls.py:444-456 | The decimal words of a list of indices all match the index pattern, and `int` of each gives back the list. |
| Commands.RenderSplits | ytls.py:443-444 | A command typed as the help text shows it is single-spaced, and `split()` recovers its verb, indices and format word for word. |
| Commands.DispatchWith | ytls.py:458-478 | There is one action per in-range index, in typed order, each on that index's video and with rip formats normalised. Download and rip leave the viewed set alone. Open and watched add one key per in-range video. |
| Commands.MarkedIsImage | ytls.py:458-474 | The keys that open and watched add are exactly one key per in-range typed index's video. |
| Commands.DispatchAsWrittenHidesNothing | ytls.py:468-474 | As written, no command changes which videos the hidden list shows. |
| Commands.WatchedStillListedAsWritten | ytls.py:472-474 | As written, `w c` on an unviewed video leaves it listed while hiding. |
| Commands.DispatchMarksVideo | ytls.py:468-474 | Corrected, every in-range video opened or marked watched has its own id in the viewed set afterwards. |
| Commands.DispatchHidesMarked | ytls.py:468-474 | Corrected, every in-range video opened or marked watched is hidden from then on. |
| Commands.DispatchKeepsViewsOtherwise | ytls.py:462-466 | Download and rip-audio leave the viewed set as it was, both as written and corrected. |

## Left out

- Argument parsing, environment lookups and cache-directory creation (ytls.py:15-49): configuration I/O, not decisions.
- ANSI colour codes, `clear_line`, `debug` and the `stdout` writes. Lines are modelled as the strings that remain once escape sequences are removed. The colour flag is a parameter.
- `LazyLoader` and the Google API client, including response-field extraction (ytls.py:141-143, 196). A response arrives as an abstract `Client` answer, and an unusable channel response is `None`.
- The pickle byte format. Only "loads to a value", "raises `EOFError`" and "no such file" are modelled. Other unpickling errors are not caught by the code either.
- `sleep(rate_limit)` and its duty-cycle arithmetic (ytls.py:102-103, 139, 195): wall-clock pacing in floating point.
- `strftime`. The date string and integer hour are inputs. One reading serves a whole run: a run that crosses a four-hour boundary between two channels is not modelled.
- The regex search and highlight of `g RE` (ytls.py:271-306): Python `re` semantics in general.
- `download`, `open_in_browser`, `rip_audio`'s and `message`'s shell-outs and output, and `pidof`. Each becomes an `Effect` value naming the video and, for audio, the format.
- The `atexit` persistence of the viewed set and its load at start-up (ytls.py:359-375). The viewed set is a parameter.
- The REPL loop: `input`, help, quit, `hide`/`unhide` toggling and `list` (ytls.py:385-437). Hiding is a parameter of the listing. Input lines are taken to contain no line feed, as `input()` guarantees, so the patterns' `$` needs no special case.
- `readlines()` splitting the file into lines. The parser takes the lines.
- Commands.Indices: digit words longer than 4300 characters, on which `int` raises `ValueError` (CPython's limit on integer-string conversion), are not modelled. The model reads each such word as its decimal value. So a zero-padded word can name an in-range video on which the program would have raised, ending the session.
- Listing.LineFillsTerminal: widths count code points. Wide and combining characters, which take two or zero terminal cells, are not modelled.
- Videos.GetVideos: its own contract states only the total bound of `limit * len(subscriptions)` snippets. What each subscription contributes is stated by `TakeFirst`, `GetVideosFromCache` and `WarmRunIsQuiet`. After an exception the run reports the world as it was before the failing step, so a failed resolution does not show the memo reloaded from a readable id cache. The exception ends the process, so nothing observes that memo.

## Findings

| source | as written | input that shows it | evidently intended | confidence | as-written member | corrected member |
|---|---|---|---|---|---|---|
| ytls.py:469-473 | `viewed_videos.add(id)` adds the built-in function `id`, not the video's id, so the viewed set never gains a video id | `w 0` on an unviewed video 0, then `h` and `l`: video 0 is still listed | add `VideoId(video id)`, so opened and watched videos are hidden | high; not executed | Commands.WatchedStillListedAsWritten | Commands.DispatchMarksVideo |
| ytls.py:443 | the verb pattern accepts `dl`, `down`, `download` but not the `d N` that the help text at line 400 offers | `d 0` is silently ignored | accept `d` as a download verb | medium; not executed | Commands.BareDownloadVerb | Commands.ParseRender |

=== FILE: api.dfy ===
/** The records the client exchanges with the YouTube Data API, and the API
    itself as an opaque collaborator. The Google client library and the parsing of
    its JSON responses are not part of this model: a response arrives already
    reduced to the fields the client reads. */
module Api {
  import opened Wrappers

  /** The `snippet` of one playlist item: `resourceId.videoId`, `title`,
      `channelTitle` and `publishedAt`. */
  datatype Snippet = Snippet(videoId: string, title: string, channelTitle: string, publishedAt: string)

  /** One element of a `playlistItems().list` response's `items`. */
  datatype Item = Item(snippet: Snippet)

  /** A channel id and the id of the channel's uploads playlist. */
  datatype IdPair = IdPair(channelId: string, uploadsId: string)

  /** A request sent to the API. */
  datatype Query =
    | ChannelsList(forUsername: string)
    | PlaylistItemsList(playlistId: string, maxResults: nat)

  /** The API's answers. Either yields `None` when the response lacks the
      fields the client reads, where its field extraction raises (`IndexError`
      or `KeyError`). */
  datatype Client = Client(
    channels: string -> Option<IdPair>,
    playlistItems: (string, nat) -> Option<seq<Item>>)

  /** Every uploads request asks for this many items. */
  const MaxResults: nat := 25

  /** The exceptions the modelled code raises and does not catch. */
  datatype Error =
    | MissingKwargs                     // `Exception('missing expected kwargs')`
    | CorruptChannelCache               // `None.get(...)` after an `EOFError` on the id cache
    | ResolutionFailed(username: string) // the channel response has no usable item
    | UploadsFailed(playlistId: string)  // the uploads response has no `items`

  /** The request an error's step had already sent when it raised. */
  function QueriesBefore(e: Error): (qs: seq<Query>)
    ensures e.ResolutionFailed? || e.UploadsFailed? <==> |qs| == 1
    ensures e.ResolutionFailed? ==> qs[0].ChannelsList? && qs[0].forUsername == e.username
    ensures e.UploadsFailed? ==> qs[0] == PlaylistItemsList(e.playlistId, MaxResults)
    ensures !(e.ResolutionFailed? || e.UploadsFailed?) ==> qs == []
  {
    match e
    case ResolutionFailed(name) => [ChannelsList(name)]
    case UploadsFailed(id) => [PlaylistItemsList(id, MaxResults)]
    case _ => []
  }
}

=== FILE: channels.dfy ===
/** Turning a subscription entry into a channel id and uploads-playlist id:
    literal channel ids are rewritten in place, every other handle goes through
    `YouTubeAPI.get_id_of_channel`, a memo kept in one pickle file. */
module Channels {
  import opened Wrappers
  import opened PyStr
  import opened Api
  import Store

  /** The single file holding the whole username-to-ids memo. */
  const ChannelCacheFile: string := "channel_cache.pkl"

  /** A literal channel id is exactly this long. */
  const ChannelIdLength: nat := 24

  /** How `get_videos` treats a subscription entry. */
  datatype Handle = Literal(ids: IdPair) | Username(name: string)

  /** `re.sub('^UC', 'UU', s)`: the pattern is anchored, so at most the first two
      characters change. */
  function ReplaceLeadingUC(s: string): (r: string)
  {
    if StartsWith(s, "UC") then "UU" + s[2..] else s
  }

  /** A 24-character handle beginning `UC` is a channel id: it is used as is and
      its uploads playlist is the same id with the prefix `UU`. Anything else is a
      username to be looked up. */
  function ClassifyHandle(user: string): (h: Handle)
    ensures h.Literal? <==> |user| == ChannelIdLength && StartsWith(user, "UC")
    ensures h.Literal? ==>
              && h.ids.channelId == user
              && |h.ids.uploadsId| == ChannelIdLength
              && h.ids.uploadsId[..2] == "UU"
              && h.ids.uploadsId[2..] == user[2..]
    ensures h.Username? ==> h.name == user
  {
    if StartsWith(user, "UC") && |user| == ChannelIdLength then
      Literal(IdPair(user, ReplaceLeadingUC(user)))
    else
      Username(user)
  }

  /** The outcome of one successful `get_id_of_channel` call: the ids returned,
      the in-memory memo and the cache directory afterwards, and the requests
      sent and files written on the way. */
  datatype Lookup = Lookup(
    ids: IdPair,
    memo: map<string, IdPair>,
    store: Store.Store<map<string, IdPair>>,
    queries: seq<Query>,
    writes: seq<string>)

  /** The map the lookup consults: the file's contents when the file loads,
      the in-memory memo (the class attribute) when there is no file. */
  function Consulted(memo: map<string, IdPair>, store: Store.Store<map<string, IdPair>>): map<string, IdPair>
  {
    match Store.Load(store, ChannelCacheFile)
    case Value(m) => m
    case _ => memo
  }

  /** True when the call has to ask the API: no cache file at all (whatever
      the in-memory memo holds), or a readable file without an entry for
      `username`. */
  predicate Misses(store: Store.Store<map<string, IdPair>>, username: string)
  {
    match Store.Load(store, ChannelCacheFile)
    case Absent => true
    case Value(m) => username !in m
    case Corrupt => false
  }

  /** `YouTubeAPI.get_id_of_channel(username)`.
      - A readable cache file that has `username` answers from the file: no
        request, no write.
      - An empty or truncated cache file makes the lookup raise.
      - Otherwise one `channels().list(forUsername=username)` request is sent;
        when its response has no usable item the call raises and nothing is
        written; else the memo gains `username` and the whole memo is pickled,
        exactly once, leaving every other entry as it was.
      Whenever the call returns, the cache file holds the ids it returned. */
  function GetIdOfChannel(
    memo: map<string, IdPair>,
    store: Store.Store<map<string, IdPair>>,
    username: string,
    client: Client): (r: Result<Lookup, Error>)
    ensures Store.Load(store, ChannelCacheFile).Value? && username in Store.Load(store, ChannelCacheFile).v ==>
              && r.Success?
              && r.value.ids == Store.Load(store, ChannelCacheFile).v[username]
              && r.value.queries == []
              && r.value.writes == []
              && r.value.store == store
    ensures Store.Load(store, ChannelCacheFile).Corrupt? ==> r == Failure(CorruptChannelCache)
    ensures Misses(store, username) && client.channels(username).None? ==>
              r == Failure(ResolutionFailed(username))
    ensures Misses(store, username) && client.channels(username).Some? ==>
              && r.Success?
              && r.value.ids == client.channels(username).value
              && r.value.queries == [ChannelsList(username)]
              && r.value.writes == [ChannelCacheFile]
              && r.value.memo == Consulted(memo, store)[username := r.value.ids]
              && r.value.store == Store.Save(store, ChannelCacheFile, r.value.memo)
    ensures r.Success? ==>
              && Store.Load(r.value.store, ChannelCacheFile) == Store.Value(r.value.memo)
              && username in r.value.memo
              && r.value.memo[username] == r.value.ids
              && (forall u :: u in Consulted(memo, store) ==> u in r.value.memo)
  {
    match Store.Load(store, ChannelCacheFile)
    case Corrupt => Failure(CorruptChannelCache)
    case Value(m) =>
      if username in m then Success(Lookup(m[username], m, store, [], []))
      else FetchChannelIds(m, store, username, client)
    case Absent => FetchChannelIds(memo, store, username, client)
  }

  /** ytls.py:128-149: one request, then the memo entry and the whole-memo write. */
  function FetchChannelIds(
    memo: map<string, IdPair>,
    store: Store.Store<map<string, IdPair>>,
    username: string,
    client: Client): Result<Lookup, Error>
  {
    match client.channels(username)
    case None => Failure(ResolutionFailed(username))
    case Some(ids) =>
      var m := memo[username := ids];
      Success(Lookup(ids, m, Store.Save(store, ChannelCacheFile, m), [ChannelsList(username)], [ChannelCacheFile]))
  }

  /** A second lookup of the same username, whatever the API would now answer,
      is served from the cache file: the same ids, no request, no write. */
  lemma RepeatLookupHits(
    memo: map<string, IdPair>,
    store: Store.Store<map<string, IdPair>>,
    username: string,
    client: Client,
    later: Client)
    requires GetIdOfChannel(memo, store, username, client).Success?
    ensures var first := GetIdOfChannel(memo, store, username, client).value;
            GetIdOfChannel(first.memo, first.store, username, later)
              == Success(Lookup(first.ids, first.memo, first.store, [], []))
  {
  }

  /** A miss never disturbs another user's entry. */
  lemma MissKeepsOtherEntries(
    memo: map<string, IdPair>,
    store: Store.Store<map<string, IdPair>>,
    username: string,
    client: Client,
    other: string)
    requires Misses(store, username)
    requires GetIdOfChannel(memo, store, username, client).Success?
    requires other != username && other in Consulted(memo, store)
    ensures var m := GetIdOfChannel(memo, store, username, client).value.memo;
            other in m && m[other] == Consulted(memo, store)[other]
  {
  }
}

=== FILE: commands.dfy ===
/** The interactive action commands (`d N`, `o N`, `w N`, `a N F`): which
    input lines are accepted, what they mean, and what they do to the listed
    videos and to the set of viewed videos. */
module Commands {
  import opened Wrappers
  import opened PyStr
  import opened Api
  import opened Listing

  /** What a command does to each video it names. */
  datatype Action = Download | Open | Watched | RipAudio(format: string)

  /** An accepted command: its action and the indices as typed, in order. */
  datatype Command = Command(action: Action, indices: seq<nat>)

  /** The verbs the regular expression at ytls.py:443 accepts. */
  const SourceVerbs: set<string> := {"dl", "down", "download", "o", "open", "w", "watched"}

  /** The verbs the pattern accepts, plus the help text's `d`
      (ytls.py:399-402). */
  const HelpVerbs: set<string> := SourceVerbs + {"d"}

  /** `a(udio)?` of ytls.py:446 and ytls.py:450. */
  const AudioVerbs: set<string> := {"a", "audio"}

  const DefaultFormat: string := "mp3"

  /** The formats `rip_audio` passes on to the downloader unchanged. */
  const AudioFormats: seq<string> := ["aac", "flac", "mp3", "m4a", "opus", "vorbis", "wav"]

  /** Every word a run of `[0-9]+`. */
  predicate AllIndexWords(ws: seq<string>)
  {
    forall i :: 0 <= i < |ws| ==> IsDigitWord(ws[i])
  }

  /** `[int(c) for c in choice]`. */
  function Indices(ws: seq<string>): (ns: seq<nat>)
    requires AllIndexWords(ws)
    ensures |ns| == |ws|
  {
    seq(|ws|, i requires 0 <= i < |ws| => DigitsValue(ws[i]))
  }

  /** The branch taken by `action.startswith(...)` for a non-audio verb. */
  function ActionOf(verb: string): Action
    requires verb in HelpVerbs
  {
    if verb[0] == 'd' then Download else if verb[0] == 'o' then Open else Watched
  }

  /** ytls.py:443-456 with `verbs` as the accepted non-audio verbs. The three
      patterns are tried in order: a verb and indices; `a` and indices, which
      rips `mp3`; `a`, indices and a trailing letters-and-digits format. The
      patterns allow exactly one whitespace character between words and none
      around them. Anything else is ignored (`None`). */
  function ParseCommandWith(verbs: set<string>, s: string): (r: Option<Command>)
    requires verbs <= HelpVerbs
    ensures r.Some? ==> SingleSpaced(s) && 2 <= |Words(s)| && r.value.indices != []
    ensures r.Some? && !r.value.action.RipAudio? ==> Words(s)[0] in verbs
    ensures r.Some? && r.value.action.RipAudio? ==> Words(s)[0] in AudioVerbs
  {
    if !SingleSpaced(s) then None
    else
      var ws := Words(s);
      if |ws| >= 2 && ws[0] in verbs && AllIndexWords(ws[1..]) then
        Some(Command(ActionOf(ws[0]), Indices(ws[1..])))
      else if |ws| >= 2 && ws[0] in AudioVerbs && AllIndexWords(ws[1..]) then
        Some(Command(RipAudio(DefaultFormat), Indices(ws[1..])))
      else if |ws| >= 3 && ws[0] in AudioVerbs && AllIndexWords(ws[1..|ws| - 1]) && IsAlnumWord(ws[|ws| - 1]) then
        Some(Command(RipAudio(ws[|ws| - 1]), Indices(ws[1..|ws| - 1])))
      else
        None
  }

  /** The grammar as written: bare `d` is not a verb. */
  function ParseCommandAsWritten(s: string): Option<Command>
  {
    ParseCommandWith(SourceVerbs, s)
  }

  /** The grammar the help text describes: `d` downloads too. */
  function ParseCommand(s: string): Option<Command>
  {
    ParseCommandWith(HelpVerbs, s)
  }

  /** What an accepted line consists of. After the verb come digit words only,
      read with `int` in typed order, with the verb's own action or the `mp3`
      rip. For `a`/`audio` the alternative is digit words then one
      letters-and-digits word, which is the format. Every other line, such as
      `o abc`, `w 1x` or `a 1 mp-3`, is ignored. */
  lemma AcceptedShape(verbs: set<string>, s: string)
    requires verbs <= HelpVerbs
    ensures var r := ParseCommandWith(verbs, s);
            var ws := Words(s);
            r.Some? ==>
              || (&& |ws| >= 2 && AllIndexWords(ws[1..])
                  && r.value.indices == Indices(ws[1..])
                  && (ws[0] in verbs ==> r.value.action == ActionOf(ws[0]))
                  && (ws[0] !in verbs ==> r.value.action == RipAudio(DefaultFormat)))
              || (&& |ws| >= 3 && ws[0] in AudioVerbs && !AllIndexWords(ws[1..])
                  && AllIndexWords(ws[1..|ws| - 1]) && IsAlnumWord(ws[|ws| - 1])
                  && r.value == Command(RipAudio(ws[|ws| - 1]), Indices(ws[1..|ws| - 1])))
  {
  }

  /** A word after the verb that is not a digit run and not the final format
      makes the line ignored: `o abc` and `a 1 mp-3 2` do nothing. */
  lemma NonIndexWordIgnored(verbs: set<string>, s: string, k: nat)
    requires verbs <= HelpVerbs
    requires 1 <= k < |Words(s)| && !IsDigitWord(Words(s)[k])
    requires Words(s)[0] !in AudioVerbs || k < |Words(s)| - 1 || !IsAlnumWord(Words(s)[k])
    ensures ParseCommandWith(verbs, s) == None
  {
    var ws := Words(s);
    assert !AllIndexWords(ws[1..]) by {
      assert ws[1..][k - 1] == ws[k];
    }
    if k < |ws| - 1 {
      assert !AllIndexWords(ws[1..|ws| - 1]) by {
        assert ws[1..|ws| - 1][k - 1] == ws[k];
      }
    }
  }

  /** The short verb the help text shows for an action. */
  function VerbOf(a: Action): string
  {
    match a
    case Download => "d"
    case Open => "o"
    case Watched => "w"
    case RipAudio(_) => "a"
  }

  /** `str(n)` of each index. */
  function IndexWords(ns: seq<nat>): seq<string>
  {
    seq(|ns|, i requires 0 <= i < |ns| => NatToString(ns[i]))
  }

  /** `int` reads back every index written with `str`. */
  lemma IndexWordsRoundTrip(ns: seq<nat>)
    ensures AllIndexWords(IndexWords(ns))
    ensures Indices(IndexWords(ns)) == ns
  {
    var ws := IndexWords(ns);
    forall i | 0 <= i < |ns| ensures DigitsValue(ws[i]) == ns[i] {
      DigitsValueOfNatToString(ns[i]);
    }
  }

  /** The words of a command as a user types it from the help text: verb,
      indices, and for audio the format last. */
  function CommandWords(c: Command): seq<string>
  {
    [VerbOf(c.action)] + IndexWords(c.indices) + (if c.action.RipAudio? then [c.action.format] else [])
  }

  function Render(c: Command): string
  {
    JoinSpace(CommandWords(c))
  }

  /** A command the grammar can express: at least one index, and for audio a
      format of letters and digits that is not all digits. */
  predicate Expressible(c: Command)
  {
    && c.indices != []
    && (c.action.RipAudio? ==> IsAlnumWord(c.action.format) && !AllDigits(c.action.format))
  }

  /** A rendered command is single-spaced and splits back into its words. */
  lemma RenderSplits(c: Command)
    requires Expressible(c)
    ensures SingleSpaced(Render(c))
    ensures Words(Render(c)) == CommandWords(c)
  {
    var ws := CommandWords(c);
    forall i | 0 <= i < |ws| ensures IsWord(ws[i]) {
      if 1 <= i <= |c.indices| {
        assert ws[i] == NatToString(c.indices[i - 1]);
      }
    }
    WordsOfJoin(ws);
    JoinSpaceSingleSpaced(ws);
  }

  /** Every expressible command whose short verb the grammar accepts, typed as
      the help text shows it, is read back as itself. */
  lemma {:induction false} ParseRenderWith(verbs: set<string>, c: Command)
    requires verbs <= HelpVerbs
    requires Expressible(c)
    requires c.action.RipAudio? || VerbOf(c.action) in verbs
    ensures ParseCommandWith(verbs, Render(c)) == Some(c)
  {
    var ws := CommandWords(c);
    RenderSplits(c);
    IndexWordsRoundTrip(c.indices);
    var digits := IndexWords(c.indices);
    if c.action.RipAudio? {
      assert ws == ["a"] + digits + [c.action.format];
      assert !AllIndexWords(ws[1..]) by {
        assert ws[1..][|digits|] == c.action.format;
      }
      assert ws[1..|ws| - 1] == digits;
    } else {
      assert ws == [VerbOf(c.action)] + digits;
      assert ws[1..] == digits;
    }
  }

  /** The corrected grammar reads back every expressible command typed as the
      help text shows it. */
  lemma ParseRender(c: Command)
    requires Expressible(c)
    ensures ParseCommand(Render(c)) == Some(c)
  {
    ParseRenderWith(HelpVerbs, c);
  }

  /** The grammar as written reads back every expressible open, watched and
      rip-audio command typed as the help text shows it. */
  lemma ParseRenderAsWritten(c: Command)
    requires Expressible(c)
    requires !c.action.Download?
    ensures ParseCommandAsWritten(Render(c)) == Some(c)
  {
    ParseRenderWith(SourceVerbs, c);
  }

  /** Any single-spaced line of an accepted verb and digit words is accepted:
      the verb's action on each word's `int`, in the order typed. This covers
      the long verbs (`dl`, `download`, `open`, `watched`), leading zeros, and
      tabs or other whitespace between words. */
  lemma VerbCommandAccepted(verbs: set<string>, s: string)
    requires verbs <= HelpVerbs
    requires SingleSpaced(s)
    requires |Words(s)| >= 2 && Words(s)[0] in verbs && AllIndexWords(Words(s)[1..])
    ensures ParseCommandWith(verbs, s) == Some(Command(ActionOf(Words(s)[0]), Indices(Words(s)[1..])))
  {
  }

  /** Concretely: `download 3 01` downloads videos 3 and 1 as written. */
  lemma LongDownloadVerb()
    ensures ParseCommandAsWritten("download 3 01") == Some(Command(Download, [3, 1]))
  {
    var ws := ["download", "3", "01"];
    LongDownloadWords();
    ParseJoinedVerbCommand(SourceVerbs, ws);
    assert ActionOf(ws[0]) == Download;
    assert Indices(ws[1..]) == [3, 1] by {
      assert ws[1..] == ["3", "01"];
      assert DigitsValue("01") == 1 by {
        assert "01"[..1] == "0";
        assert "0"[..0] == [];
      }
      assert DigitsValue("3") == 3 by {
        assert "3"[..0] == [];
      }
    }
    assert ParseCommandWith(SourceVerbs, JoinSpace(ws)) == Some(Command(Download, [3, 1]));
  }

  lemma LongDownloadWords()
    ensures JoinSpace(["download", "3", "01"]) == "download 3 01"
  {
    var ws := ["download", "3", "01"];
    assert ws[1..][1..] == ["01"];
    assert ws[1..] == ["3", "01"];
  }

  /** A verb and digit words joined with single spaces are accepted as that
      verb's action on each word's `int`. */
  lemma ParseJoinedVerbCommand(verbs: set<string>, ws: seq<string>)
    requires verbs <= HelpVerbs
    requires |ws| >= 2 && ws[0] in verbs && AllIndexWords(ws[1..])
    ensures ParseCommandWith(verbs, JoinSpace(ws)) == Some(Command(ActionOf(ws[0]), Indices(ws[1..])))
  {
    VerbLineWords(verbs, ws);
    WordsOfJoin(ws);
    JoinSpaceSingleSpaced(ws);
    VerbCommandAccepted(verbs, JoinSpace(ws));
  }

  /** Each word of a verb followed by digit words is free of whitespace. */
  lemma VerbLineWords(verbs: set<string>, ws: seq<string>)
    requires verbs <= HelpVerbs
    requires |ws| >= 2 && ws[0] in verbs && AllIndexWords(ws[1..])
    ensures forall i :: 0 <= i < |ws| ==> IsWord(ws[i])
  {
    forall i | 0 <= i < |ws| ensures IsWord(ws[i]) {
      if i > 0 {
        assert ws[i] == ws[1..][i - 1];
      }
    }
  }

  /** The help text's `d N` is ignored by the grammar as written, for every
      download command. */
  lemma {:induction false} DownloadRenderRejectedAsWritten(indices: seq<nat>)
    requires indices != []
    ensures ParseCommandAsWritten(Render(Command(Download, indices))) == None
    ensures ParseCommand(Render(Command(Download, indices))) == Some(Command(Download, indices))
  {
    var c := Command(Download, indices);
    RenderSplits(c);
    assert Words(Render(c))[0] == "d";
    ParseRender(c);
  }

  /** Concretely: `d 0` does nothing as written, and downloads video 0 as the
      help text says. */
  lemma BareDownloadVerb()
    ensures ParseCommandAsWritten("d 0") == None
    ensures ParseCommand("d 0") == Some(Command(Download, [0]))
  {
    assert Render(Command(Download, [0])) == "d 0" by {
      assert NatToString(0) == "0";
      assert CommandWords(Command(Download, [0])) == ["d", "0"];
    }
    DownloadRenderRejectedAsWritten([0]);
  }

  /** `a` followed by indices only rips `mp3`; a trailing run of digits is
      always one more index, never a format. */
  lemma AudioWithIndicesOnly(verbs: set<string>, s: string)
    requires verbs <= HelpVerbs
    requires SingleSpaced(s)
    requires |Words(s)| >= 2 && Words(s)[0] in AudioVerbs && AllIndexWords(Words(s)[1..])
    ensures ParseCommandWith(verbs, s) == Some(Command(RipAudio(DefaultFormat), Indices(Words(s)[1..])))
    ensures |ParseCommandWith(verbs, s).value.indices| == |Words(s)| - 1
  {
  }

  /** A trailing word with a letter in it is the format, and every word between
      the verb and it is an index. */
  lemma AudioWithFormat(verbs: set<string>, s: string)
    requires verbs <= HelpVerbs
    requires SingleSpaced(s)
    requires |Words(s)| >= 3 && Words(s)[0] in AudioVerbs
    requires AllIndexWords(Words(s)[1..|Words(s)| - 1])
    requires IsAlnumWord(Words(s)[|Words(s)| - 1]) && !AllDigits(Words(s)[|Words(s)| - 1])
    ensures ParseCommandWith(verbs, s)
              == Some(Command(RipAudio(Words(s)[|Words(s)| - 1]), Indices(Words(s)[1..|Words(s)| - 1])))
  {
    var ws := Words(s);
    assert !AllIndexWords(ws[1..]) by {
      assert ws[1..][|ws| - 2] == ws[|ws| - 1];
    }
  }

  /** `rip_audio`'s check: a known format is kept, anything else becomes
      `mp3`. */
  function NormalizeFormat(f: string): (g: string)
    ensures g in AudioFormats
    ensures g == f || g == DefaultFormat
    ensures f in AudioFormats <==> g == f
  {
    if f in AudioFormats then f else DefaultFormat
  }

  lemma NormalizeFormatIdempotent(f: string)
    ensures NormalizeFormat(NormalizeFormat(f)) == NormalizeFormat(f)
  {
  }

  /** What one accepted command does to one in-range video: the `Actions`
      call made for it. */
  datatype Effect =
    | RipAudioOf(video: Snippet, format: string)
    | DownloadOf(video: Snippet)
    | OpenInBrowser(video: Snippet)
    | MarkAsWatched(video: Snippet)

  function EffectOf(a: Action, v: Snippet): Effect
  {
    match a
    case RipAudio(f) => RipAudioOf(v, NormalizeFormat(f))
    case Download => DownloadOf(v)
    case Open => OpenInBrowser(v)
    case Watched => MarkAsWatched(v)
  }

  /** The indices `c in range(0, len(VIDEOS))` lets through, in order. */
  function InRange(indices: seq<nat>, count: nat): (r: seq<nat>)
    ensures |r| <= |indices|
    ensures forall k :: 0 <= k < |r| ==> r[k] < count
    ensures forall c :: c in r <==> c in indices && c < count
    decreases |indices|
  {
    if indices == [] then []
    else if indices[0] < count then [indices[0]] + InRange(indices[1..], count)
    else InRange(indices[1..], count)
  }

  /** The filter works index by index: typed order is kept and a repeated
      index is acted on as often as it is typed. */
  lemma {:induction false} InRangeAppend(a: seq<nat>, b: seq<nat>, count: nat)
    ensures InRange(a + b, count) == InRange(a, count) + InRange(b, count)
    decreases |a|
  {
    if a == [] {
      assert a + b == b;
    } else {
      assert (a + b)[0] == a[0];
      assert (a + b)[1..] == a[1..] + b;
      InRangeAppend(a[1..], b, count);
    }
  }

  /** One typed index is kept exactly when it is below the count. */
  lemma InRangeSingle(c: nat, count: nat)
    ensures InRange([c], count) == if c < count then [c] else []
  {
    assert [c][1..] == [];
  }

  /** True for the two actions that add to the viewed set. */
  predicate Marks(a: Action)
  {
    a.Open? || a.Watched?
  }

  /** The effects of a command, in order, and the viewed set afterwards. */
  datatype Outcome = Outcome(effects: seq<Effect>, viewed: set<ViewKey>)

  /** The keys the open and watched branches add for `indices`: one per
      in-range index. */
  function Marked(mark: Snippet -> ViewKey, videos: seq<Snippet>, indices: seq<nat>): set<ViewKey>
    decreases |indices|
  {
    if indices == [] then {}
    else if indices[0] < |videos| then {mark(videos[indices[0]])} + Marked(mark, videos, indices[1..])
    else Marked(mark, videos, indices[1..])
  }

  /** `Marked` is the image of the in-range indices under `mark`. */
  lemma {:induction false} MarkedIsImage(mark: Snippet -> ViewKey, videos: seq<Snippet>, indices: seq<nat>)
    ensures Marked(mark, videos, indices) == set c | c in indices && c < |videos| :: mark(videos[c])
    decreases |indices|
  {
    if indices != [] {
      MarkedIsImage(mark, videos, indices[1..]);
      var c := indices[0];
      var later := set c' | c' in indices[1..] && c' < |videos| :: mark(videos[c']);
      var all := set c' | c' in indices && c' < |videos| :: mark(videos[c']);
      assert indices == [c] + indices[1..];
      forall k | k in all ensures k in later || (c < |videos| && k == mark(videos[c])) {
        var c' :| c' in indices && c' < |videos| && k == mark(videos[c']);
        if c' != c {
          assert c' in indices[1..];
        }
      }
    }
  }

  /** The loop at ytls.py:458-478, with `mark` the key the open and watched
      branches add to the viewed set: one effect per in-range index, in the
      order typed, and for open and watched one key per such index. */
  function DispatchWith(mark: Snippet -> ViewKey, videos: seq<Snippet>, viewed: set<ViewKey>, cmd: Command): (o: Outcome)
    ensures |o.effects| == |InRange(cmd.indices, |videos|)|
    ensures forall k :: 0 <= k < |o.effects| ==>
              o.effects[k] == EffectOf(cmd.action, videos[InRange(cmd.indices, |videos|)[k]])
    ensures !Marks(cmd.action) ==> o.viewed == viewed
    ensures Marks(cmd.action) ==> o.viewed == viewed + Marked(mark, videos, cmd.indices)
    decreases |cmd.indices|
  {
    if cmd.indices == [] then Outcome([], viewed)
    else
      var c := cmd.indices[0];
      var rest := Command(cmd.action, cmd.indices[1..]);
      if c < |videos| then
        var viewed' := if Marks(cmd.action) then viewed + {mark(videos[c])} else viewed;
        var o := DispatchWith(mark, videos, viewed', rest);
        Outcome([EffectOf(cmd.action, videos[c])] + o.effects, o.viewed)
      else
        DispatchWith(mark, videos, viewed, rest)
  }

  /** ytls.py:469 and ytls.py:473 as written: the built-in function `id` is added, not
      the video's id. */
  function MarkAsWritten(v: Snippet): ViewKey
  {
    BuiltinId
  }

  /** The key `Actions.viewed` looks for. */
  function MarkVideo(v: Snippet): ViewKey
  {
    VideoId(v.videoId)
  }

  function DispatchAsWritten(videos: seq<Snippet>, viewed: set<ViewKey>, cmd: Command): Outcome
  {
    DispatchWith(MarkAsWritten, videos, viewed, cmd)
  }

  function Dispatch(videos: seq<Snippet>, viewed: set<ViewKey>, cmd: Command): Outcome
  {
    DispatchWith(MarkVideo, videos, viewed, cmd)
  }

  /** Two viewed sets that agree on every video id show the same list. */
  lemma {:induction false} ShownFromSameViews(videos: seq<Snippet>, from: nat, hiding: bool, v1: set<ViewKey>, v2: set<ViewKey>)
    requires from <= |videos|
    requires forall id :: VideoId(id) in v1 <==> VideoId(id) in v2
    ensures ShownFrom(videos, from, hiding, v1) == ShownFrom(videos, from, hiding, v2)
    decreases |videos| - from
  {
    if from < |videos| {
      ShownFromSameViews(videos, from + 1, hiding, v1, v2);
      assert Hidden(videos[from], hiding, v1) == Hidden(videos[from], hiding, v2);
    }
  }

  /** As written, no command changes what the hidden list shows: opening or
      marking a video watched never hides it. */
  lemma DispatchAsWrittenHidesNothing(videos: seq<Snippet>, viewed: set<ViewKey>, cmd: Command, hiding: bool)
    ensures ShownFrom(videos, 0, hiding, DispatchAsWritten(videos, viewed, cmd).viewed)
            == ShownFrom(videos, 0, hiding, viewed)
  {
    var o := DispatchAsWritten(videos, viewed, cmd);
    MarkedIsImage(MarkAsWritten, videos, cmd.indices);
    assert o.viewed <= viewed + {BuiltinId};
    ShownFromSameViews(videos, 0, hiding, o.viewed, viewed);
  }

  /** Concretely: `w c` on an unviewed video leaves it listed while hiding. */
  lemma WatchedStillListedAsWritten(videos: seq<Snippet>, viewed: set<ViewKey>, c: nat)
    requires c < |videos|
    requires !IsViewed(videos[c], viewed)
    ensures c in ShownFrom(videos, 0, true, DispatchAsWritten(videos, viewed, Command(Watched, [c])).viewed)
  {
    DispatchAsWrittenHidesNothing(videos, viewed, Command(Watched, [c]), true);
    ShownFromMembers(videos, 0, true, viewed, c);
  }

  /** Corrected: every in-range video a command opens or marks watched has
      its own id in the viewed set afterwards. */
  lemma DispatchMarksVideo(videos: seq<Snippet>, viewed: set<ViewKey>, cmd: Command, c: nat)
    requires Marks(cmd.action)
    requires c in cmd.indices && c < |videos|
    ensures IsViewed(videos[c], Dispatch(videos, viewed, cmd).viewed)
  {
    MarkedIsImage(MarkVideo, videos, cmd.indices);
  }

  /** Corrected: every in-range video a command opens or marks watched is
      left out of the list from then on while hiding. */
  lemma DispatchHidesMarked(videos: seq<Snippet>, viewed: set<ViewKey>, cmd: Command, c: nat)
    requires Marks(cmd.action)
    requires c in cmd.indices && c < |videos|
    ensures c !in ShownFrom(videos, 0, true, Dispatch(videos, viewed, cmd).viewed)
  {
    DispatchMarksVideo(videos, viewed, cmd, c);
    ShownFromMembers(videos, 0, true, Dispatch(videos, viewed, cmd).viewed, c);
  }

  /** Corrected, and the same as written: download and rip-audio leave the
      viewed set alone. */
  lemma DispatchKeepsViewsOtherwise(videos: seq<Snippet>, viewed: set<ViewKey>, cmd: Command)
    requires !Marks(cmd.action)
    ensures Dispatch(videos, viewed, cmd).viewed == viewed
    ensures DispatchAsWritten(videos, viewed, cmd).viewed == viewed
  {
  }
}

=== FILE: listing.dfy ===
/** `Actions.list` and `list_videos`: one line per video, laid out so that the
    title column fills the terminal. Colour escape sequences are not part of the
    model; the strings here are what remains once they are removed. */
module Listing {
  import opened Wrappers
  import opened PyStr
  import opened Api

  /** An element of the `viewed_videos` set: a video id, or the built-in
      function `id` that the open and watched commands add to it. */
  datatype ViewKey = BuiltinId | VideoId(id: string)

  const WatchUrlPrefix: string := "https://youtube.com/watch?v="

  /** The character that marks a truncated title. */
  const Ellipsis: char := '\U{2026}'

  function VideoUrl(v: Snippet): string
  {
    WatchUrlPrefix + v.videoId
  }

  /** `publishedAt[2:10]`, e.g. `21-03-04` of `2021-03-04T10:00:00Z`. */
  function PubDate(v: Snippet): string
  {
    Slice(v.publishedAt, 2, 10)
  }

  /** `publishedAt[11:16]`, e.g. `10:00`. */
  function PubTime(v: Snippet): string
  {
    Slice(v.publishedAt, 11, 16)
  }

  /** `self.id in viewed_videos`. */
  predicate IsViewed(v: Snippet, viewed: set<ViewKey>)
  {
    VideoId(v.videoId) in viewed
  }

  /** `len(str(len(VIDEOS)))`: as many columns as the count has digits. */
  function IndexColumnWidth(count: nat): nat
  {
    |NatToString(count)|
  }

  /** The columns left for the title once the index, date, time, channel and
      URL columns and their separators are taken from the terminal width. It can
      be negative on a narrow terminal. */
  function MaxTitleLen(cols: int, count: nat, v: Snippet): int
  {
    cols - ((IndexColumnWidth(count) + 1)
            + (|PubDate(v)| + 1)
            + (|PubTime(v)| + 1)
            + (|v.channelTitle| + 2)
            + (|VideoUrl(v)| + 2))
  }

  /** `str(index).ljust(index_column_width) + ' '`: the digits, then spaces
      only. Every index of the list fits its column, so the field is always one
      wider than the column. */
  function IndexField(index: nat, count: nat): (f: string)
    ensures index < count ==> |f| == IndexColumnWidth(count) + 1
    ensures |NatToString(index)| < |f| && f[..|NatToString(index)|] == NatToString(index)
    ensures forall i :: |NatToString(index)| <= i < |f| ==> f[i] == ' '
  {
    IndexFitsColumn(index, count);
    var s := NatToString(index);
    var padded := Ljust(s, IndexColumnWidth(count));
    assert (padded + " ")[..|s|] == padded[..|s|];
    padded + " "
  }

  lemma IndexFitsColumn(index: nat, count: nat)
    ensures index < count ==> |NatToString(index)| <= IndexColumnWidth(count)
  {
    if index < count {
      NatToStringLengthMonotone(index, count);
    }
  }

  /** The title column (ytls.py:292-297). A title longer than the room is cut to
      the room and marked with an ellipsis; with colour on, a shorter one is
      padded with spaces; without colour it is only framed by two spaces. */
  function TitleField(title: string, maxLen: int, color: bool): string
  {
    if |title| > maxLen then
      " " + SliceTo(title, maxLen) + [Ellipsis, ' ']
    else if color then
      " " + title + Spaces(maxLen - (|title| - 1)) + " "
    else
      " " + title + " "
  }

  /** The layout of the title column: with colour on and room to spare it is
      always `max + 3` wide; a title that fits is kept whole, followed only by
      spaces; one that does not is cut to the room and ends in the ellipsis. */
  lemma TitleFieldLayout(title: string, maxLen: int, color: bool)
    ensures var f := TitleField(title, maxLen, color);
            && (color && 0 <= maxLen ==> |f| == maxLen + 3)
            && (|title| <= maxLen && !color ==> |f| == |title| + 2)
            && f != [] && f[0] == ' ' && f[|f| - 1] == ' '
            && (|title| <= maxLen ==>
                  && f[1..|title| + 1] == title
                  && forall i :: |title| + 1 <= i < |f| ==> f[i] == ' ')
            && (0 <= maxLen < |title| ==>
                  && |f| == maxLen + 3
                  && f[1..maxLen + 1] == title[..maxLen]
                  && f[maxLen + 1..] == [Ellipsis, ' '])
            && (maxLen < 0 ==> |f| == 3 + (if |title| + maxLen > 0 then |title| + maxLen else 0))
  {
  }

  /** The line `Actions.list` writes for the video at `index` of `count`:
      index, date and time, channel, title, URL and a newline. */
  function Line(v: Snippet, index: nat, count: nat, cols: int, color: bool): string
  {
    IndexField(index, count)
      + (PubDate(v) + " " + PubTime(v))
      + (" " + v.channelTitle + ":")
      + TitleField(v.title, MaxTitleLen(cols, count, v), color)
      + (VideoUrl(v) + "\n")
  }

  /** With colour on, every line of a list is exactly `cols` characters (code
      points) plus its newline whenever the title column has room at all,
      however long the title is. */
  lemma LineFillsTerminal(v: Snippet, index: nat, count: nat, cols: int)
    requires index < count
    requires 0 <= MaxTitleLen(cols, count, v)
    ensures |Line(v, index, count, cols, true)| == cols + 1
  {
    TitleFieldLayout(v.title, MaxTitleLen(cols, count, v), true);
  }

  /** A line starts with the index the action commands take for its video. */
  lemma LineStartsWithIndex(v: Snippet, index: nat, count: nat, cols: int, color: bool)
    ensures var s := NatToString(index);
            StartsWith(Line(v, index, count, cols, color), s)
  {
    var s := NatToString(index);
    var f := IndexField(index, count);
    var rest := (PubDate(v) + " " + PubTime(v))
      + (" " + v.channelTitle + ":")
      + TitleField(v.title, MaxTitleLen(cols, count, v), color)
      + (VideoUrl(v) + "\n");
    assert Line(v, index, count, cols, color) == f + rest;
    PrefixOfConcat(f, rest, |s|);
  }

  /** A prefix of the first part is a prefix of the whole. */
  lemma PrefixOfConcat(a: string, b: string, n: nat)
    requires n <= |a|
    ensures (a + b)[..n] == a[..n]
  {
  }

  /** A video the list leaves out: viewed, while hiding. */
  predicate Hidden(v: Snippet, hiding: bool, viewed: set<ViewKey>)
  {
    hiding && IsViewed(v, viewed)
  }

  /** `Actions(video).list(index)` without a search pattern: nothing for a
      viewed video while hiding, else the video's line. */
  function ListEntry(v: Snippet, index: nat, count: nat, cols: int, color: bool, hiding: bool, viewed: set<ViewKey>): (r: Option<string>)
    ensures r.None? <==> Hidden(v, hiding, viewed)
    ensures r.Some? ==> r.value == Line(v, index, count, cols, color)
  {
    if IsViewed(v, viewed) && hiding then None else Some(Line(v, index, count, cols, color))
  }

  /** The indices `list_videos(VIDEOS)` prints a line for, from position
      `from` on: every index, less those of viewed videos while hiding, in
      increasing order. */
  function ShownFrom(videos: seq<Snippet>, from: nat, hiding: bool, viewed: set<ViewKey>): (shown: seq<nat>)
    requires from <= |videos|
    ensures |shown| <= |videos| - from
    ensures forall k :: 0 <= k < |shown| ==> from <= shown[k] < |videos| && !Hidden(videos[shown[k]], hiding, viewed)
    decreases |videos| - from
  {
    if from == |videos| then []
    else
      var here := if Hidden(videos[from], hiding, viewed) then [] else [from];
      here + ShownFrom(videos, from + 1, hiding, viewed)
  }

  /** `list_videos(VIDEOS)`: one line per shown index, each written with its
      own index, in the order of the list. */
  function ListVideos(videos: seq<Snippet>, cols: int, color: bool, hiding: bool, viewed: set<ViewKey>): (lines: seq<string>)
    ensures |lines| == |ShownFrom(videos, 0, hiding, viewed)|
    ensures forall k :: 0 <= k < |lines| ==>
              var i := ShownFrom(videos, 0, hiding, viewed)[k];
              ListEntry(videos[i], i, |videos|, cols, color, hiding, viewed) == Some(lines[k])
  {
    var shown := ShownFrom(videos, 0, hiding, viewed);
    seq(|shown|, k requires 0 <= k < |shown| => Line(videos[shown[k]], shown[k], |videos|, cols, color))
  }

  /** An index is shown exactly when it is in range and its video is not
      hidden. */
  lemma {:induction false} ShownFromMembers(videos: seq<Snippet>, from: nat, hiding: bool, viewed: set<ViewKey>, i: nat)
    requires from <= |videos|
    ensures i in ShownFrom(videos, from, hiding, viewed) <==>
              from <= i < |videos| && !Hidden(videos[i], hiding, viewed)
    decreases |videos| - from
  {
    if from < |videos| {
      ShownFromMembers(videos, from + 1, hiding, viewed, i);
    }
  }

  predicate StrictlyIncreasing(s: seq<nat>)
  {
    forall k, l :: 0 <= k < l < |s| ==> s[k] < s[l]
  }

  /** The shown indices are strictly increasing: the list keeps the order of
      `VIDEOS`. */
  lemma {:induction false} ShownFromIncreasing(videos: seq<Snippet>, from: nat, hiding: bool, viewed: set<ViewKey>)
    requires from <= |videos|
    ensures StrictlyIncreasing(ShownFrom(videos, from, hiding, viewed))
    decreases |videos| - from
  {
    if from < |videos| {
      ShownFromIncreasing(videos, from + 1, hiding, viewed);
      var rest := ShownFrom(videos, from + 1, hiding, viewed);
      var shown := ShownFrom(videos, from, hiding, viewed);
      if Hidden(videos[from], hiding, viewed) {
        assert shown == rest;
      } else {
        assert shown == [from] + rest;
        forall k, l | 0 <= k < l < |shown| ensures shown[k] < shown[l] {
          assert shown[l] == rest[l - 1];
          assert from + 1 <= rest[l - 1];
          if k == 0 {
            assert shown[k] == from;
          } else {
            assert shown[k] == rest[k - 1];
          }
        }
      }
    }
  }

  /** Without hiding every video is listed, the `k`-th line under index `k`. */
  lemma {:induction false} ShownFromAll(videos: seq<Snippet>, from: nat, viewed: set<ViewKey>)
    requires from <= |videos|
    ensures var shown := ShownFrom(videos, from, false, viewed);
            |shown| == |videos| - from && forall k :: 0 <= k < |shown| ==> shown[k] == from + k
    decreases |videos| - from
  {
    if from < |videos| {
      ShownFromAll(videos, from + 1, viewed);
    }
  }

  /** While hiding, the list has one line per video not yet viewed. */
  lemma {:induction false} ShownFromCount(videos: seq<Snippet>, from: nat, viewed: set<ViewKey>)
    requires from <= |videos|
    ensures |ShownFrom(videos, from, true, viewed)|
            == |set k | from <= k < |videos| && !IsViewed(videos[k], viewed)|
    decreases |videos| - from
  {
    var keep := set k | from <= k < |videos| && !IsViewed(videos[k], viewed);
    if from < |videos| {
      ShownFromCount(videos, from + 1, viewed);
      var rest := set k | from + 1 <= k < |videos| && !IsViewed(videos[k], viewed);
      if IsViewed(videos[from], viewed) {
        assert keep == rest;
      } else {
        assert keep == rest + {from};
      }
    } else {
      assert keep == {};
    }
  }
}

=== FILE: pystr.dfy ===
/** The Python string built-ins the client relies on: `strip`, `split`, `str(n)`,
    `int(s)`, `ljust`, repetition and slicing, with Python's semantics. */
module PyStr {

  /** `str.isspace()` for one character. Python's `strip()`, `split()` and the
      regular-expression class `\s` all use this same set of Unicode whitespace. */
  predicate IsSpace(c: char) {
    || ('\t' <= c <= '\r')
    || ('\U{1C}' <= c <= ' ')
    || c == '\U{85}' || c == '\U{A0}' || c == '\U{1680}'
    || ('\U{2000}' <= c <= '\U{200A}')
    || c == '\U{2028}' || c == '\U{2029}' || c == '\U{202F}' || c == '\U{205F}' || c == '\U{3000}'
  }

  predicate NotSpace(c: char) {
    !IsSpace(c)
  }

  /** The regular-expression class `[0-9]`. */
  predicate IsAsciiDigit(c: char) {
    '0' <= c <= '9'
  }

  /** The regular-expression class `[a-zA-Z0-9]`. */
  predicate IsAsciiAlnum(c: char) {
    IsAsciiDigit(c) || ('a' <= c <= 'z') || ('A' <= c <= 'Z')
  }

  predicate AllDigits(w: string) {
    forall i :: 0 <= i < |w| ==> IsAsciiDigit(w[i])
  }

  /** A non-empty run of ASCII digits: what `[0-9]+` matches. */
  predicate IsDigitWord(w: string) {
    w != [] && AllDigits(w)
  }

  /** A non-empty run of ASCII letters and digits: what `[a-zA-Z0-9]+` matches. */
  predicate IsAlnumWord(w: string) {
    w != [] && forall i :: 0 <= i < |w| ==> IsAsciiAlnum(w[i])
  }

  /** A non-empty string without whitespace: one element of `str.split()`. */
  predicate IsWord(w: string) {
    w != [] && forall i :: 0 <= i < |w| ==> NotSpace(w[i])
  }

  predicate StartsWith(s: string, prefix: string) {
    |prefix| <= |s| && s[..|prefix|] == prefix
  }

  /** The first index at or after `i` whose character fails `p`, or `|s|`. */
  function Scan(s: string, i: nat, p: char -> bool): (j: nat)
    requires i <= |s|
    ensures i <= j <= |s|
    ensures forall k :: i <= k < j ==> p(s[k])
    ensures j == |s| || !p(s[j])
    decreases |s| - i
  {
    if i == |s| || !p(s[i]) then i else Scan(s, i + 1, p)
  }

  /** The contract of `Scan` pins its result down: any `j` with the same two
      properties is the one `Scan` returns. */
  lemma ScanIs(s: string, i: nat, p: char -> bool, j: nat)
    requires i <= j <= |s|
    requires forall k :: i <= k < j ==> p(s[k])
    requires j == |s| || !p(s[j])
    ensures Scan(s, i, p) == j
  {
  }

  /** The smallest index at or below `j` such that every character in between
      satisfies `p`. */
  function ScanBack(s: string, j: nat, p: char -> bool): (i: nat)
    requires j <= |s|
    ensures i <= j
    ensures forall k :: i <= k < j ==> p(s[k])
    ensures i == 0 || !p(s[i - 1])
    decreases j
  {
    if j == 0 || !p(s[j - 1]) then j else ScanBack(s, j - 1, p)
  }

  /** `str.strip()` with no argument. The result is one contiguous piece of `s`
      that keeps every non-whitespace character of `s` and neither starts nor
      ends with whitespace, which determines it uniquely. */
  function Strip(s: string): (r: string)
    ensures Scan(s, 0, IsSpace) + |r| <= |s|
    ensures r == s[Scan(s, 0, IsSpace)..Scan(s, 0, IsSpace) + |r|]
    ensures forall k :: 0 <= k < |s| && NotSpace(s[k]) ==>
              Scan(s, 0, IsSpace) <= k < Scan(s, 0, IsSpace) + |r|
    ensures r == [] || (NotSpace(r[0]) && NotSpace(r[|r| - 1]))
  {
    var a := Scan(s, 0, IsSpace);
    if a == |s| then
      []
    else
      var b := ScanBack(s, |s|, IsSpace);
      assert !IsSpace(s[a]);
      s[a..b]
  }

  /** A string without surrounding whitespace is its own `strip()`. */
  lemma StripOfTrimmed(s: string)
    requires s == [] || (NotSpace(s[0]) && NotSpace(s[|s| - 1]))
    ensures Strip(s) == s
  {
    if s != [] {
      ScanIs(s, 0, IsSpace, 0);
      var r := Strip(s);
      assert NotSpace(s[|s| - 1]);
      assert |r| == |s|;
    }
  }

  /** `strip()` is idempotent. */
  lemma StripIdempotent(s: string)
    ensures Strip(Strip(s)) == Strip(s)
  {
    StripOfTrimmed(Strip(s));
  }

  /** `sep` occurs in `s` starting at index `i`. */
  predicate OccursAt(s: string, i: nat, sep: string) {
    i + |sep| <= |s| && s[i..i + |sep|] == sep
  }

  /** The first index at or after `from` where `sep` occurs, or `|s|`. */
  function FirstOccurrence(s: string, sep: string, from: nat): (k: nat)
    requires from <= |s|
    ensures from <= k <= |s|
    ensures k == |s| || OccursAt(s, k, sep)
    ensures forall i :: from <= i < k ==> !OccursAt(s, i, sep)
    decreases |s| - from
  {
    if from == |s| || OccursAt(s, from, sep) then from else FirstOccurrence(s, sep, from + 1)
  }

  /** `s.split(sep)[0]`: the part of `s` before the first occurrence of `sep`,
      or all of `s` when `sep` does not occur. (Python rejects an empty `sep`.) */
  function SplitHead(s: string, sep: string): (r: string)
    requires sep != []
    ensures |r| <= |s| && r == s[..|r|]
    ensures forall i :: 0 <= i < |r| ==> !OccursAt(s, i, sep)
    ensures |r| == |s| || OccursAt(s, |r|, sep)
  {
    s[..FirstOccurrence(s, sep, 0)]
  }

  /** `str.split()` with no argument: the maximal runs of non-whitespace, in order. */
  function Words(s: string): (ws: seq<string>)
    ensures forall i :: 0 <= i < |ws| ==> IsWord(ws[i])
    decreases |s|
  {
    if s == [] then
      []
    else if IsSpace(s[0]) then
      Words(s[1..])
    else
      var j := Scan(s, 0, NotSpace);
      [s[..j]] + Words(s[j..])
  }

  /** `' '.join(ws)`. */
  function JoinSpace(ws: seq<string>): string
    decreases |ws|
  {
    if ws == [] then [] else if |ws| == 1 then ws[0] else ws[0] + " " + JoinSpace(ws[1..])
  }

  /** Non-empty, no leading or trailing whitespace, and never two whitespace
      characters in a row: the words of the string are separated by exactly one
      whitespace character each. */
  predicate SingleSpaced(s: string) {
    && s != []
    && NotSpace(s[0])
    && NotSpace(s[|s| - 1])
    && forall i :: 0 < i < |s| && IsSpace(s[i]) ==> NotSpace(s[i - 1])
  }

  /** A word followed by whitespace is the first element of `split()`. */
  lemma WordsOfWordThenSpace(w: string, rest: string)
    requires IsWord(w)
    requires rest != [] && IsSpace(rest[0])
    ensures Words(w + rest) == [w] + Words(rest[1..])
  {
    var s := w + rest;
    ScanIs(s, 0, NotSpace, |w|);
    assert s[..|w|] == w;
    assert s[|w|..] == rest;
  }

  /** A single word is the whole of its own `split()`. */
  lemma WordsOfWord(w: string)
    requires IsWord(w)
    ensures Words(w) == [w]
  {
    ScanIs(w, 0, NotSpace, |w|);
    assert w[..|w|] == w;
    assert w[|w|..] == [];
  }

  /** `split()` undoes `' '.join` on words. */
  lemma {:induction false} WordsOfJoin(ws: seq<string>)
    requires forall i :: 0 <= i < |ws| ==> IsWord(ws[i])
    ensures Words(JoinSpace(ws)) == ws
    decreases |ws|
  {
    if |ws| == 1 {
      WordsOfWord(ws[0]);
    } else if |ws| > 1 {
      var w := ws[0];
      var rest := JoinSpace(ws[1..]);
      assert JoinSpace(ws) == w + (" " + rest);
      WordsOfJoin(ws[1..]);
      WordsOfWordThenSpace(w, " " + rest);
      assert (" " + rest)[1..] == rest;
      assert ws == [w] + ws[1..];
    }
  }

  /** Nothing but whitespace. */
  predicate AllSpace(g: string) {
    forall i :: 0 <= i < |g| ==> IsSpace(g[i])
  }

  /** `gaps[0] + ws[0] + gaps[1] + ... + ws[n-1] + gaps[n]`. */
  function Interleave(gaps: seq<string>, ws: seq<string>): string
    requires |gaps| == |ws| + 1
    decreases |ws|
  {
    if ws == [] then gaps[0] else gaps[0] + ws[0] + Interleave(gaps[1..], ws[1..])
  }

  /** Leading whitespace contributes no word. */
  lemma {:induction false} WordsAfterSpace(g: string, t: string)
    requires AllSpace(g)
    ensures Words(g + t) == Words(t)
    decreases |g|
  {
    if g != [] {
      assert (g + t)[0] == g[0];
      assert (g + t)[1..] == g[1..] + t;
      WordsAfterSpace(g[1..], t);
    } else {
      assert g + t == t;
    }
  }

  /** Whitespace-only gaps around the words, every inner gap non-empty. */
  predicate Gapped(gaps: seq<string>, ws: seq<string>) {
    && |gaps| == |ws| + 1
    && (forall k :: 0 <= k < |gaps| ==> AllSpace(gaps[k]))
    && (forall k :: 0 < k < |ws| ==> gaps[k] != [])
    && (forall k :: 0 <= k < |ws| ==> IsWord(ws[k]))
  }

  /** A word followed only by whitespace is the whole `split()`. */
  lemma WordsOfWordThenGap(w: string, g: string)
    requires IsWord(w) && AllSpace(g)
    ensures Words(w + g) == [w]
  {
    if g == [] {
      assert w + g == w;
      WordsOfWord(w);
    } else {
      WordsOfWordThenSpace(w, g);
      WordsAfterSpace(g[1..], []);
      assert g[1..] + [] == g[1..];
    }
  }

  /** `split()` in general: words separated by any non-empty runs of any
      whitespace, with any whitespace before the first and after the last, split
      back into exactly those words. */
  lemma {:induction false} WordsOfInterleave(gaps: seq<string>, ws: seq<string>)
    requires Gapped(gaps, ws)
    ensures Words(Interleave(gaps, ws)) == ws
    decreases |ws|
  {
    if ws == [] {
      WordsAfterSpace(gaps[0], []);
      assert gaps[0] + [] == gaps[0];
    } else if |ws| == 1 {
      assert Interleave(gaps, ws) == gaps[0] + (ws[0] + gaps[1]);
      WordsAfterSpace(gaps[0], ws[0] + gaps[1]);
      WordsOfWordThenGap(ws[0], gaps[1]);
    } else {
      var rest := Interleave(gaps[1..], ws[1..]);
      assert Interleave(gaps, ws) == gaps[0] + (ws[0] + rest);
      WordsAfterSpace(gaps[0], ws[0] + rest);
      assert rest[0] == gaps[1][0];
      WordsOfWordThenSpace(ws[0], rest);
      assert Gapped(gaps[1..], ws[1..]) by {
        forall k | 0 < k < |ws[1..]| ensures gaps[1..][k] != [] {
          assert gaps[1..][k] == gaps[k + 1];
        }
      }
      WordsOfInterleave(gaps[1..], ws[1..]);
      assert ws == [ws[0]] + ws[1..];
    }
  }

  /** `' '.join` of words is single-spaced. */
  lemma {:induction false} JoinSpaceSingleSpaced(ws: seq<string>)
    requires ws != []
    requires forall i :: 0 <= i < |ws| ==> IsWord(ws[i])
    ensures SingleSpaced(JoinSpace(ws))
    decreases |ws|
  {
    if |ws| > 1 {
      var w := ws[0];
      var rest := JoinSpace(ws[1..]);
      JoinSpaceSingleSpaced(ws[1..]);
      var s := JoinSpace(ws);
      assert s == w + " " + rest;
      forall i | 0 < i < |s| && IsSpace(s[i])
        ensures NotSpace(s[i - 1])
      {
        if i > |w| + 1 {
          assert s[i] == rest[i - |w| - 1];
          assert s[i - 1] == rest[i - |w| - 2];
        } else if i == |w| {
          assert s[i - 1] == w[|w| - 1];
        }
      }
    }
  }

  /** The ASCII digit for `d`. */
  function DigitChar(d: nat): (c: char)
    requires d < 10
    ensures IsAsciiDigit(c) && c as int - '0' as int == d
  {
    ('0' as int + d) as char
  }

  /** `str(n)` for a non-negative integer: its decimal digits, no leading zero. */
  function NatToString(n: nat): (s: string)
    ensures IsDigitWord(s)
    ensures |s| == 1 <==> n < 10
    ensures |s| > 1 ==> s[0] != '0'
    decreases n
  {
    if n < 10 then [DigitChar(n)] else NatToString(n / 10) + [DigitChar(n % 10)]
  }

  /** `int(w)` for a string of ASCII digits (leading zeros allowed, as in Python). */
  function DigitsValue(w: string): nat
    requires AllDigits(w)
    decreases |w|
  {
    if w == [] then 0 else 10 * DigitsValue(w[..|w| - 1]) + (w[|w| - 1] as int - '0' as int)
  }

  /** `int(str(n)) == n`. */
  lemma {:induction false} DigitsValueOfNatToString(n: nat)
    ensures DigitsValue(NatToString(n)) == n
    decreases n
  {
    var s := NatToString(n);
    if n >= 10 {
      DigitsValueOfNatToString(n / 10);
      assert s[..|s| - 1] == NatToString(n / 10);
    }
  }

  /** More digits for a larger number: `len(str(a)) <= len(str(b))` when `a <= b`. */
  lemma {:induction false} NatToStringLengthMonotone(a: nat, b: nat)
    requires a <= b
    ensures |NatToString(a)| <= |NatToString(b)|
    decreases b
  {
    if a >= 10 {
      NatToStringLengthMonotone(a / 10, b / 10);
    }
  }

  /** `' ' * n`: empty when `n` is zero or negative. */
  function Spaces(n: int): (r: string)
    ensures |r| == if n > 0 then n else 0
    ensures forall i :: 0 <= i < |r| ==> r[i] == ' '
  {
    if n <= 0 then [] else seq(n, _ => ' ')
  }

  /** `s.ljust(width)`: `s` followed by enough spaces to reach `width`. */
  function Ljust(s: string, width: int): (r: string)
    ensures |r| == if width > |s| then width else |s|
    ensures r[..|s|] == s
    ensures forall i :: |s| <= i < |r| ==> r[i] == ' '
  {
    s + Spaces(width - |s|)
  }

  /** `s[:m]`, where a negative `m` counts from the end. */
  function SliceTo(s: string, m: int): (r: string)
    ensures |r| <= |s| && r == s[..|r|]
    ensures 0 <= m <= |s| ==> |r| == m
    ensures m > |s| ==> r == s
    ensures m < 0 ==> |r| == if |s| + m > 0 then |s| + m else 0
  {
    if m >= 0 then
      (if m <= |s| then s[..m] else s)
    else
      (if |s| + m > 0 then s[..|s| + m] else [])
  }

  /** `s[i:j]` for non-negative bounds: both are clamped to the string. */
  function Slice(s: string, i: nat, j: nat): (r: string)
    ensures i <= j <= |s| ==> r == s[i..j]
    ensures i <= |s| < j ==> r == s[i..]
    ensures j <= i || |s| <= i ==> r == []
    ensures |r| <= |s|
  {
    var hi := if j <= |s| then j else |s|;
    if i < hi then s[i..hi] else []
  }
}

=== FILE: store.dfy ===
/** The cache directory as the client sees it: one pickle file per name. Only
    "the file loads to a value" versus "the file is empty or truncated" (Python's
    `EOFError`) versus "there is no such file" is modelled, not the byte format. */
module Store {
  import opened Wrappers

  /** File name to contents. `None` is a file that exists but raises `EOFError`
      when unpickled; `Some(v)` is a file that unpickles to `v`. */
  type Store<V> = map<string, Option<V>>

  /** What reading one file yields: `path.isfile` false, `EOFError`, or a value. */
  datatype Loaded<V> = Absent | Corrupt | Value(v: V)

  function Load<V>(s: Store<V>, name: string): Loaded<V>
  {
    if name !in s then Absent
    else match s[name]
      case None => Corrupt
      case Some(v) => Value(v)
  }

  /** `pickle.dump` into a file opened with mode `'wb'`: the file afterwards
      loads to exactly `v`, whatever it held before, and no other file changes. */
  function Save<V>(s: Store<V>, name: string, v: V): (s': Store<V>)
    ensures Load(s', name) == Value(v)
    ensures forall other :: other != name ==> Load(s', other) == Load(s, other)
    ensures s'.Keys == s.Keys + {name}
  {
    s[name := Some(v)]
  }
}

=== FILE: subscriptions.dfy ===
/** Reading `subscriptions.txt`: one handle per line, `#` starts a comment line,
    and ` #` starts a trailing comment. */
module Subscriptions {
  import opened PyStr

  /** A line whose stripped form starts with `#` is dropped entirely. */
  predicate IsCommentLine(line: string)
  {
    StartsWith(Strip(line), "#")
  }

  /** A string the parser can produce: no surrounding whitespace, no ` #`
      anywhere, and not starting with `#`. */
  predicate IsHandle(h: string)
  {
    && (h == [] || (NotSpace(h[0]) && NotSpace(h[|h| - 1]) && h[0] != '#'))
    && forall i :: 0 <= i < |h| ==> !OccursAt(h, i, " #")
  }

  /** `line.strip().split(' #')[0].strip()`. */
  function CleanLine(line: string): string
  {
    Strip(SplitHead(Strip(line), " #"))
  }

  /** A cleaned line is no longer than the line, has no surrounding
      whitespace and no ` #`; it is empty for a blank line, and for any other
      line that is not a comment it is a handle beginning with the line's first
      non-blank character. */
  lemma CleanLineShape(line: string)
    ensures var h := CleanLine(line);
            && |h| <= |line|
            && (h == [] || (NotSpace(h[0]) && NotSpace(h[|h| - 1])))
            && (forall i :: 0 <= i < |h| ==> !OccursAt(h, i, " #"))
            && (Strip(line) == [] ==> h == [])
            && (Strip(line) != [] && !IsCommentLine(line) ==> h != [] && h[0] == Strip(line)[0] && IsHandle(h))
  {
    var u := Strip(line);
    var t := SplitHead(u, " #");
    HeadOfStrippedLine(u, t, Strip(t));
  }

  /** The facts behind `CleanLineShape`, for `u` stripped, `t` its part
      before the first ` #`, and `h` that part stripped. */
  lemma HeadOfStrippedLine(u: string, t: string, h: string)
    requires u == [] || (NotSpace(u[0]) && NotSpace(u[|u| - 1]))
    requires t == SplitHead(u, " #")
    requires h == Strip(t)
    ensures forall i :: 0 <= i < |h| ==> !OccursAt(h, i, " #")
    ensures u != [] ==> t != [] && h != [] && h[0] == u[0]
  {
    var a := Scan(t, 0, IsSpace);
    forall i | 0 <= i < |h| ensures !OccursAt(h, i, " #") {
      assert !OccursAt(u, a + i, " #");
      if i + 2 <= |h| {
        assert h[i..i + 2] == t[a + i..a + i + 2] == u[a + i..a + i + 2];
      }
    }
    if u != [] {
      assert !OccursAt(u, 0, " #") by {
        if 2 <= |u| {
          assert u[0..2][0] == u[0];
        }
      }
      assert t[0] == u[0];
      ScanIs(t, 0, IsSpace, 0);
    }
  }

  /** What one line contributes: nothing for a comment line, else its handle. */
  function Kept(line: string): (hs: seq<string>)
    ensures |hs| <= 1
    ensures hs == [] <==> IsCommentLine(line)
    ensures forall i :: 0 <= i < |hs| ==> IsHandle(hs[i])
  {
    if IsCommentLine(line) then [] else CleanLineShape(line); [CleanLine(line)]
  }

  /** The generator at ytls.py:348-352: comment lines are dropped, every other
      line is cleaned; order is kept and blank lines survive as `""`. */
  function ParseSubscriptions(lines: seq<string>): (subs: seq<string>)
    ensures |subs| <= |lines|
    ensures forall i :: 0 <= i < |subs| ==> IsHandle(subs[i])
    decreases |lines|
  {
    if lines == [] then []
    else
      Kept(lines[0]) + ParseSubscriptions(lines[1..])
  }

  /** Parsing is line by line: the handles of two files concatenated are the
      handles of the first followed by those of the second. */
  lemma {:induction false} ParseSubscriptionsAppend(a: seq<string>, b: seq<string>)
    ensures ParseSubscriptions(a + b) == ParseSubscriptions(a) + ParseSubscriptions(b)
    decreases |a|
  {
    if a == [] {
      assert a + b == b;
    } else {
      assert (a + b)[0] == a[0];
      assert (a + b)[1..] == a[1..] + b;
      ParseSubscriptionsAppend(a[1..], b);
      calc {
        ParseSubscriptions(a + b);
        Kept(a[0]) + ParseSubscriptions(a[1..] + b);
        Kept(a[0]) + (ParseSubscriptions(a[1..]) + ParseSubscriptions(b));
        (Kept(a[0]) + ParseSubscriptions(a[1..])) + ParseSubscriptions(b);
        ParseSubscriptions(a) + ParseSubscriptions(b);
      }
    }
  }

  /** `[h for line in lines for h in f(line)]`: each line's results, in order. */
  function FlatMap(f: string -> seq<string>, lines: seq<string>): seq<string>
    decreases |lines|
  {
    if lines == [] then [] else f(lines[0]) + FlatMap(f, lines[1..])
  }

  /** The parser is the per-line rule applied line by line. */
  lemma {:induction false} ParseSubscriptionsIsFlatMap(lines: seq<string>)
    ensures ParseSubscriptions(lines) == FlatMap(Kept, lines)
    decreases |lines|
  {
    if lines != [] {
      ParseSubscriptionsIsFlatMap(lines[1..]);
    }
  }

  /** When every line yields exactly one result, the i-th result comes from
      the i-th line. */
  lemma {:induction false} FlatMapOfSingletons(f: string -> seq<string>, g: string -> string, lines: seq<string>)
    requires forall k :: 0 <= k < |lines| ==> f(lines[k]) == [g(lines[k])]
    ensures |FlatMap(f, lines)| == |lines|
    ensures forall i :: 0 <= i < |lines| ==> FlatMap(f, lines)[i] == g(lines[i])
    decreases |lines|
  {
    if lines != [] {
      var rest := FlatMap(f, lines[1..]);
      assert f(lines[0]) == [g(lines[0])];
      FlatMapOfSingletons(f, g, lines[1..]);
      forall i | 0 < i < |lines| ensures FlatMap(f, lines)[i] == g(lines[i]) {
        assert FlatMap(f, lines)[i] == rest[i - 1];
        assert lines[1..][i - 1] == lines[i];
      }
    }
  }

  /** `[line for line in lines if p(line)]`. */
  function Filter(p: string -> bool, lines: seq<string>): (kept: seq<string>)
    ensures |kept| <= |lines|
    ensures forall k :: 0 <= k < |kept| ==> p(kept[k])
    decreases |lines|
  {
    if lines == [] then []
    else (if p(lines[0]) then [lines[0]] else []) + Filter(p, lines[1..])
  }

  /** `[g(x) for x in xs]`. */
  function MapLines(g: string -> string, xs: seq<string>): (ys: seq<string>)
    ensures |ys| == |xs|
    ensures forall k :: 0 <= k < |xs| ==> ys[k] == g(xs[k])
  {
    seq(|xs|, k requires 0 <= k < |xs| => g(xs[k]))
  }

  /** A per-line rule that keeps `g(line)` for the lines `p` accepts and
      nothing for the others is a filter followed by a map. */
  lemma {:induction false} FlatMapIsFilterMap(f: string -> seq<string>, p: string -> bool, g: string -> string, lines: seq<string>)
    requires forall k :: 0 <= k < |lines| ==> f(lines[k]) == if p(lines[k]) then [g(lines[k])] else []
    ensures FlatMap(f, lines) == MapLines(g, Filter(p, lines))
    decreases |lines|
  {
    if lines != [] {
      var l := lines[0];
      var rest := Filter(p, lines[1..]);
      assert FlatMap(f, lines) == f(l) + FlatMap(f, lines[1..]);
      assert f(l) == if p(l) then [g(l)] else [];
      FlatMapIsFilterMap(f, p, g, lines[1..]);
      if p(l) {
        assert Filter(p, lines) == [l] + rest;
        var ys := MapLines(g, [l] + rest);
        assert ys == [g(l)] + MapLines(g, rest) by {
          forall k | 1 <= k < |ys| ensures ys[k] == MapLines(g, rest)[k - 1] {
            assert ([l] + rest)[k] == rest[k - 1];
          }
        }
      } else {
        assert Filter(p, lines) == rest;
      }
    }
  }

  /** A line the parser keeps something for. */
  predicate IsContentLine(line: string)
  {
    !IsCommentLine(line)
  }

  /** The parser is the generator's filter and map: every comment line is
      dropped and every other line, in order, is cleaned. */
  lemma {:induction false} ParseSubscriptionsIsFilterMap(lines: seq<string>)
    ensures ParseSubscriptions(lines) == MapLines(CleanLine, Filter(IsContentLine, lines))
  {
    forall k | 0 <= k < |lines|
      ensures Kept(lines[k]) == if IsContentLine(lines[k]) then [CleanLine(lines[k])] else []
    {
    }
    FlatMapIsFilterMap(Kept, IsContentLine, CleanLine, lines);
    ParseSubscriptionsIsFlatMap(lines);
  }

  /** A comment line contributes nothing, wherever it stands in the file. */
  lemma ParseSubscriptionsSkipsComment(a: seq<string>, c: string, b: seq<string>)
    requires IsCommentLine(c)
    ensures ParseSubscriptions(a + [c] + b) == ParseSubscriptions(a + b)
  {
    ParseSubscriptionsAppend(a + [c], b);
    ParseSubscriptionsAppend(a, [c]);
    ParseSubscriptionsAppend(a, b);
    assert [c][1..] == [];
    assert ParseSubscriptions([c]) == [];
    assert ParseSubscriptions(a) + [] == ParseSubscriptions(a);
  }

  /** Without comment lines, the i-th handle is the i-th line cleaned. */
  lemma ParseSubscriptionsWithoutComments(lines: seq<string>)
    requires forall i :: 0 <= i < |lines| ==> !IsCommentLine(lines[i])
    ensures |ParseSubscriptions(lines)| == |lines|
    ensures forall i :: 0 <= i < |lines| ==> ParseSubscriptions(lines)[i] == CleanLine(lines[i])
  {
    forall k | 0 <= k < |lines| ensures Kept(lines[k]) == [CleanLine(lines[k])] {
      assert !IsCommentLine(lines[k]);
    }
    FlatMapOfSingletons(Kept, CleanLine, lines);
    ParseSubscriptionsIsFlatMap(lines);
  }

  /** A handle the parser produced is its own cleaned line. */
  lemma CleanLineOfHandle(h: string)
    requires IsHandle(h)
    ensures !IsCommentLine(h)
    ensures CleanLine(h) == h
  {
    StripOfTrimmed(h);
    var t := SplitHead(h, " #");
    assert !OccursAt(h, |t|, " #");
    assert t == h;
    StripOfTrimmed(t);
  }

  /** Writing the parsed handles back one per line and parsing again gives
      the same handles. */
  lemma {:induction false} ParseSubscriptionsIdempotent(lines: seq<string>)
    ensures ParseSubscriptions(ParseSubscriptions(lines)) == ParseSubscriptions(lines)
  {
    var subs := ParseSubscriptions(lines);
    forall i | 0 <= i < |subs| ensures !IsCommentLine(subs[i]) {
      CleanLineOfHandle(subs[i]);
    }
    ParseSubscriptionsWithoutComments(subs);
    forall i | 0 <= i < |subs| ensures ParseSubscriptions(subs)[i] == subs[i] {
      CleanLineOfHandle(subs[i]);
    }
  }
}

=== FILE: uploads.dfy ===
/** `YouTubeAPI.get_latest_uploads_from_channel`: the latest uploads of one
    channel, cached per username in a file whose name carries a four-hour bucket
    of the local clock. */
module Uploads {
  import opened Wrappers
  import opened PyStr
  import opened Api
  import Store
  import Channels

  /** `int(strftime('%H'))`. */
  type Hour = h: int | 0 <= h < 24

  /** The two readings of the clock the cache key uses: `strftime('%Y%m%d')`
      and the hour. */
  datatype Clock = Clock(date: string, hour: Hour)

  /** The bucket key: the date followed by the one digit `hour // 4`, which
      names one of the day's six four-hour slots. */
  function BucketKey(date: string, hour: Hour): (key: string)
    ensures |key| == |date| + 1 && key[..|date|] == date
    ensures '0' <= key[|date|] <= '5'
    ensures key[|date|] as int - '0' as int == hour / 4
  {
    var digit := NatToString(hour / 4);
    assert |digit| == 1;
    date + digit
  }

  /** Two readings of the clock share a bucket exactly when they fall on the
      same date and in the same four-hour slot. */
  lemma BucketKeySameSlot(d1: string, h1: Hour, d2: string, h2: Hour)
    ensures BucketKey(d1, h1) == BucketKey(d2, h2) <==> d1 == d2 && h1 / 4 == h2 / 4
  {
    var k1, k2 := BucketKey(d1, h1), BucketKey(d2, h2);
    if k1 == k2 {
      assert |d1| == |d2|;
      assert d1 == k1[..|d1|] == k2[..|d2|] == d2;
      assert k1[|d1|] == k2[|d2|];
    }
  }

  /** The cache file name for one username in one bucket. */
  function UploadCachePath(username: string, key: string): (name: string)
    ensures name != Channels.ChannelCacheFile
    ensures |name| == |username| + |key| + 18
  {
    username + "_upload_cache." + key + ".pkl"
  }

  /** For a fixed username the file name determines the bucket, and for a fixed
      bucket it determines the username. */
  lemma UploadCachePathInjective(u1: string, k1: string, u2: string, k2: string)
    requires u1 == u2 || k1 == k2
    ensures UploadCachePath(u1, k1) == UploadCachePath(u2, k2) <==> u1 == u2 && k1 == k2
  {
    var p1, p2 := UploadCachePath(u1, k1), UploadCachePath(u2, k2);
    if u1 == u2 {
      assert p1[|u1| + 14..|p1| - 4] == k1;
      assert p2[|u2| + 14..|p2| - 4] == k2;
    } else if |u1| == |u2| {
      assert p1[..|u1|] == u1;
      assert p2[..|u2|] == u2;
    }
  }

  /** The file a call consults for `username` at `clock`. */
  function CachePathAt(username: string, clock: Clock): string
  {
    UploadCachePath(username, BucketKey(clock.date, clock.hour))
  }

  /** The outcome of one successful call: the uploads returned, the cache
      directory afterwards, and the requests sent and files written. */
  datatype Fetch = Fetch(
    uploads: seq<Item>,
    store: Store.Store<seq<Item>>,
    queries: seq<Query>,
    writes: seq<string>)

  /** `get_latest_uploads_from_channel(username=, channel_id=, uploads_id=)`.
      - Any argument left `None` raises.
      - A bucket file that loads is returned as loaded, with no request and no
        write; this includes an empty list, since the test is `uploads is None`.
      - A missing or empty/truncated bucket file costs exactly one request for
        the uploads playlist with `maxResults=25`. A response without `items`
        raises before anything is written; otherwise its items are written to
        that one file and returned. */
  function GetLatestUploads(
    store: Store.Store<seq<Item>>,
    username: Option<string>,
    channelId: Option<string>,
    uploadsId: Option<string>,
    clock: Clock,
    client: Client): (r: Result<Fetch, Error>)
    ensures r.Failure? && r.error == MissingKwargs <==> username.None? || channelId.None? || uploadsId.None?
    ensures r.Failure? && r.error != MissingKwargs <==>
              && username.Some? && channelId.Some? && uploadsId.Some?
              && !Store.Load(store, CachePathAt(username.value, clock)).Value?
              && client.playlistItems(uploadsId.value, MaxResults).None?
    ensures r.Failure? && r.error != MissingKwargs ==> r.error == UploadsFailed(uploadsId.value)
    ensures r.Success? ==>
              var name := CachePathAt(username.value, clock);
              && (Store.Load(store, name).Value? ==>
                    r.value == Fetch(Store.Load(store, name).v, store, [], []))
              && (!Store.Load(store, name).Value? ==>
                    && r.value.queries == [PlaylistItemsList(uploadsId.value, MaxResults)]
                    && Some(r.value.uploads) == client.playlistItems(uploadsId.value, MaxResults)
                    && r.value.writes == [name]
                    && r.value.store == Store.Save(store, name, r.value.uploads))
    ensures r.Success? ==>
              Store.Load(r.value.store, CachePathAt(username.value, clock)) == Store.Value(r.value.uploads)
  {
    if username.None? || channelId.None? || uploadsId.None? then
      Failure(MissingKwargs)
    else
      var name := CachePathAt(username.value, clock);
      match Store.Load(store, name)
      case Value(uploads) => Success(Fetch(uploads, store, [], []))
      case _ =>
        match client.playlistItems(uploadsId.value, MaxResults)
        case None => Failure(UploadsFailed(uploadsId.value))
        case Some(items) =>
          Success(Fetch(items, Store.Save(store, name, items), [PlaylistItemsList(uploadsId.value, MaxResults)], [name]))
  }

  /** A second call in the same bucket, whatever the API would now answer, is
      served from the file the first call left: same uploads, no request, no
      write. */
  lemma RepeatFetchHits(
    store: Store.Store<seq<Item>>,
    username: string,
    ids: IdPair,
    clock: Clock,
    client: Client,
    later: Client)
    requires GetLatestUploads(store, Some(username), Some(ids.channelId), Some(ids.uploadsId), clock, client).Success?
    ensures var first := GetLatestUploads(store, Some(username), Some(ids.channelId), Some(ids.uploadsId), clock, client).value;
            GetLatestUploads(first.store, Some(username), Some(ids.channelId), Some(ids.uploadsId), clock, later)
              == Success(Fetch(first.uploads, first.store, [], []))
  {
  }
}

=== FILE: videos.dfy ===
/** `get_videos`: for each subscription in order, resolve its ids, fetch its
    latest uploads through the cache, and yield the first few `snippet`s. */
module Videos {
  import opened Wrappers
  import opened Api
  import Store
  import opened Channels
  import opened Uploads

  /** Everything the calls read and change: the `YouTubeAPI.channel_cache`
      class attribute, the id-cache file and the upload-cache files. */
  datatype World = World(
    memo: map<string, IdPair>,
    channels: Store.Store<map<string, IdPair>>,
    uploads: Store.Store<seq<Item>>)

  /** How many items the per-channel loop lets through: it stops once `count`
      reaches the limit, so a negative limit never stops it. */
  function TakeCount(n: nat, limit: int): nat
  {
    if 0 <= limit < n then limit else n
  }

  /** The `snippet`s of the first `TakeCount` uploads, in upload order. */
  function FirstSnippets(uploads: seq<Item>, limit: int): seq<Snippet>
  {
    seq(TakeCount(|uploads|, limit), i requires 0 <= i < TakeCount(|uploads|, limit) => uploads[i].snippet)
  }

  /** The inner loop of `get_videos`, as written: count the items yielded and
      leave the loop when the count equals the limit. It yields exactly the
      `snippet`s of the first `min(limit, |uploads|)` items, in order. */
  method TakeFirst(uploads: seq<Item>, limit: int) returns (out: seq<Snippet>)
    ensures out == FirstSnippets(uploads, limit)
    ensures 0 <= limit ==> |out| == if limit < |uploads| then limit else |uploads|
    ensures limit < 0 ==> |out| == |uploads|
  {
    out := [];
    var count := 0;
    var k := 0;
    while k < |uploads|
      invariant 0 <= k <= |uploads|
      invariant count == k == |out|
      invariant forall i :: 0 <= i < k ==> out[i] == uploads[i].snippet
      invariant 0 <= limit ==> count <= limit
    {
      if count == limit {
        break;
      }
      count := count + 1;
      out := out + [uploads[k].snippet];
      k := k + 1;
    }
  }

  /** The ids of one subscription and what finding them did. */
  datatype Resolved = Resolved(ids: IdPair, world: World, queries: seq<Query>, writes: seq<string>)

  /** ytls.py:320-323: a literal channel id needs neither the cache nor the API;
      any other handle goes through `get_id_of_channel`. */
  function ResolveIds(w: World, user: string, client: Client): (r: Result<Resolved, Error>)
    ensures ClassifyHandle(user).Literal? ==> r == Success(Resolved(ClassifyHandle(user).ids, w, [], []))
    ensures ClassifyHandle(user).Username? ==>
              match GetIdOfChannel(w.memo, w.channels, user, client)
              case Failure(e) => r == Failure(e)
              case Success(l) => r == Success(Resolved(l.ids, World(l.memo, l.store, w.uploads), l.queries, l.writes))
  {
    match ClassifyHandle(user)
    case Literal(ids) => Success(Resolved(ids, w, [], []))
    case Username(name) =>
      match GetIdOfChannel(w.memo, w.channels, name, client)
      case Failure(e) => Failure(e)
      case Success(l) => Success(Resolved(l.ids, World(l.memo, l.store, w.uploads), l.queries, l.writes))
  }

  /** The result of `list(get_videos(...))`: the world afterwards, the snippets
      yielded, the requests sent and files written, and the exception that ended
      the run early, if any (the snippets then are those yielded before it). */
  datatype Run = Run(
    world: World,
    videos: seq<Snippet>,
    queries: seq<Query>,
    writes: seq<string>,
    error: Option<Error>)

  /** `get_videos(youtube_api, subscriptions, limit)` drained into a list, with
      one reading of the clock for the whole run. At most `limit` snippets come
      from each subscription, so at most `limit * |subs|` in all. */
  function GetVideos(w: World, subs: seq<string>, limit: int, clock: Clock, client: Client): (run: Run)
    ensures 0 <= limit ==> |run.videos| <= limit * |subs|
    decreases |subs|
  {
    if subs == [] then
      Run(w, [], [], [], None)
    else
      var user := subs[0];
      match ResolveIds(w, user, client)
      case Failure(e) => Run(w, [], QueriesBefore(e), [], Some(e))
      case Success(res) =>
        match GetLatestUploads(res.world.uploads, Some(user), Some(res.ids.channelId), Some(res.ids.uploadsId), clock, client)
        case Failure(e) => Run(res.world, [], res.queries + QueriesBefore(e), res.writes, Some(e))
        case Success(f) =>
          var here := FirstSnippets(f.uploads, limit);
          var rest := GetVideos(World(res.world.memo, res.world.channels, f.store), subs[1..], limit, clock, client);
          PerSubscriptionBound(limit, |subs[1..]|);
          Run(rest.world, here + rest.videos, res.queries + f.queries + rest.queries,
              res.writes + f.writes + rest.writes, rest.error)
  }

  /** One more subscription allows `limit` more snippets. */
  lemma PerSubscriptionBound(limit: int, n: nat)
    ensures limit * (n + 1) == limit + limit * n
  {
  }

  /** An uploads response without `items` ends the run at that subscription:
      the request was sent, nothing is yielded for it, and the upload cache is
      left exactly as the run found it, since the code raises before `dump`. */
  lemma UploadsFailureWritesNothing(w: World, subs: seq<string>, limit: int, clock: Clock, client: Client)
    requires subs != []
    requires ResolveIds(w, subs[0], client).Success?
    requires var res := ResolveIds(w, subs[0], client).value;
             && !Store.Load(w.uploads, CachePathAt(subs[0], clock)).Value?
             && client.playlistItems(res.ids.uploadsId, MaxResults).None?
    ensures var res := ResolveIds(w, subs[0], client).value;
            var run := GetVideos(w, subs, limit, clock, client);
            && run.error == Some(UploadsFailed(res.ids.uploadsId))
            && run.videos == []
            && run.queries == res.queries + [PlaylistItemsList(res.ids.uploadsId, MaxResults)]
            && run.writes == res.writes
            && run.world.uploads == w.uploads
  {
  }

  /** True when every subscription is a literal channel id. */
  predicate AllLiteral(subs: seq<string>)
  {
    forall i :: 0 <= i < |subs| ==> ClassifyHandle(subs[i]).Literal?
  }

  /** A subscription list of literal channel ids never asks the API for a
      channel and never touches the id cache or the memo; the only exception it
      can end with is an uploads response without `items`. */
  lemma {:induction false} LiteralIdsSkipLookup(w: World, subs: seq<string>, limit: int, clock: Clock, client: Client)
    requires AllLiteral(subs)
    ensures var run := GetVideos(w, subs, limit, clock, client);
            && (run.error == None || run.error.value.UploadsFailed?)
            && (forall i :: 0 <= i < |run.queries| ==> run.queries[i].PlaylistItemsList?)
            && run.world.memo == w.memo
            && run.world.channels == w.channels
    decreases |subs|
  {
    if subs != [] {
      var res := ResolveIds(w, subs[0], client).value;
      assert res.world == w && res.queries == [];
      var g := GetLatestUploads(w.uploads, Some(subs[0]), Some(res.ids.channelId), Some(res.ids.uploadsId), clock, client);
      if g.Success? {
        var w' := World(w.memo, w.channels, g.value.store);
        assert AllLiteral(subs[1..]) by {
          forall i | 0 <= i < |subs[1..]| ensures ClassifyHandle(subs[1..][i]).Literal? {
            assert subs[1..][i] == subs[i + 1];
          }
        }
        LiteralIdsSkipLookup(w', subs[1..], limit, clock, client);
      }
    }
  }

  /** `m` is a sub-map of `m2`: every entry of `m` is in `m2` unchanged. */
  ghost predicate SubMap(m: map<string, IdPair>, m2: map<string, IdPair>)
  {
    forall k :: k in m ==> k in m2 && m2[k] == m[k]
  }

  /** The cache only ever grows: a bucket file that loads keeps its contents,
      and a readable id cache keeps every entry it has. */
  ghost predicate Grows(w: World, w2: World)
  {
    && (forall name :: Store.Load(w.uploads, name).Value? ==> Store.Load(w2.uploads, name) == Store.Load(w.uploads, name))
    && (Store.Load(w.channels, ChannelCacheFile).Value? ==>
          && Store.Load(w2.channels, ChannelCacheFile).Value?
          && SubMap(Store.Load(w.channels, ChannelCacheFile).v, Store.Load(w2.channels, ChannelCacheFile).v))
  }

  lemma GrowsTransitive(w1: World, w2: World, w3: World)
    requires Grows(w1, w2) && Grows(w2, w3)
    ensures Grows(w1, w3)
  {
  }

  /** What a run finds in the cache for one subscription, with nothing fetched. */
  predicate WarmFor(w: World, user: string, clock: Clock)
  {
    && Store.Load(w.uploads, CachePathAt(user, clock)).Value?
    && (ClassifyHandle(user).Username? ==>
          && Store.Load(w.channels, ChannelCacheFile).Value?
          && user in Store.Load(w.channels, ChannelCacheFile).v)
  }

  /** Every subscription can be served from the cache at `clock`. */
  predicate Warm(w: World, subs: seq<string>, clock: Clock)
  {
    forall i :: 0 <= i < |subs| ==> WarmFor(w, subs[i], clock)
  }

  /** The snippets the cache alone yields for `subs` at `clock`. */
  function CachedVideos(w: World, subs: seq<string>, limit: int, clock: Clock): seq<Snippet>
    decreases |subs|
  {
    if subs == [] then []
    else
      var here := match Store.Load(w.uploads, CachePathAt(subs[0], clock))
        case Value(items) => FirstSnippets(items, limit)
        case _ => [];
      here + CachedVideos(w, subs[1..], limit, clock)
  }

  /** Neither half of a step shrinks the cache. */
  lemma ResolveIdsGrows(w: World, user: string, client: Client)
    requires ResolveIds(w, user, client).Success?
    ensures Grows(w, ResolveIds(w, user, client).value.world)
  {
  }

  lemma {:induction false} GetVideosGrows(w: World, subs: seq<string>, limit: int, clock: Clock, client: Client)
    ensures Grows(w, GetVideos(w, subs, limit, clock, client).world)
    decreases |subs|
  {
    if subs != [] {
      var user := subs[0];
      var r := ResolveIds(w, user, client);
      if r.Success? {
        var res := r.value;
        ResolveIdsGrows(w, user, client);
        var g := GetLatestUploads(res.world.uploads, Some(user), Some(res.ids.channelId), Some(res.ids.uploadsId), clock, client);
        if g.Success? {
          var w' := World(res.world.memo, res.world.channels, g.value.store);
          assert Grows(res.world, w');
          GetVideosGrows(w', subs[1..], limit, clock, client);
          GrowsTransitive(w, res.world, w');
          GrowsTransitive(w, w', GetVideos(w', subs[1..], limit, clock, client).world);
        }
      }
    }
  }

  lemma WarmForGrows(w: World, w2: World, user: string, clock: Clock)
    requires WarmFor(w, user, clock) && Grows(w, w2)
    ensures WarmFor(w2, user, clock)
  {
  }

  /** After a run that ends normally, the whole subscription list can be
      served from the cache at the same clock reading. */
  lemma {:induction false} GetVideosWarms(w: World, subs: seq<string>, limit: int, clock: Clock, client: Client)
    requires GetVideos(w, subs, limit, clock, client).error == None
    ensures Warm(GetVideos(w, subs, limit, clock, client).world, subs, clock)
    decreases |subs|
  {
    if subs != [] {
      var user := subs[0];
      var res := ResolveIds(w, user, client).value;
      var f := GetLatestUploads(res.world.uploads, Some(user), Some(res.ids.channelId), Some(res.ids.uploadsId), clock, client).value;
      var w' := World(res.world.memo, res.world.channels, f.store);
      var rest := GetVideos(w', subs[1..], limit, clock, client);
      assert WarmFor(w', user, clock);
      GetVideosWarms(w', subs[1..], limit, clock, client);
      GetVideosGrows(w', subs[1..], limit, clock, client);
      WarmForGrows(w', rest.world, user, clock);
      forall i | 0 <= i < |subs| ensures WarmFor(rest.world, subs[i], clock) {
        if i > 0 {
          assert subs[i] == subs[1..][i - 1];
        }
      }
    }
  }

  /** What a run that ends normally yields is exactly what the cache it leaves
      behind holds for its subscriptions. */
  lemma {:induction false} GetVideosFromCache(w: World, subs: seq<string>, limit: int, clock: Clock, client: Client)
    requires GetVideos(w, subs, limit, clock, client).error == None
    ensures var run := GetVideos(w, subs, limit, clock, client);
            run.videos == CachedVideos(run.world, subs, limit, clock)
    decreases |subs|
  {
    if subs != [] {
      var user := subs[0];
      var res := ResolveIds(w, user, client).value;
      var f := GetLatestUploads(res.world.uploads, Some(user), Some(res.ids.channelId), Some(res.ids.uploadsId), clock, client).value;
      var w' := World(res.world.memo, res.world.channels, f.store);
      var rest := GetVideos(w', subs[1..], limit, clock, client);
      GetVideosFromCache(w', subs[1..], limit, clock, client);
      GetVideosGrows(w', subs[1..], limit, clock, client);
      assert Store.Load(w'.uploads, CachePathAt(user, clock)) == Store.Value(f.uploads);
      assert Store.Load(rest.world.uploads, CachePathAt(user, clock)) == Store.Value(f.uploads);
    }
  }

  /** A run over a warm cache sends no request, writes no file, leaves both
      caches as they were and yields what the cache holds. */
  lemma {:induction false} WarmRunIsQuiet(w: World, subs: seq<string>, limit: int, clock: Clock, client: Client)
    requires Warm(w, subs, clock)
    ensures var run := GetVideos(w, subs, limit, clock, client);
            && run.error == None
            && run.queries == []
            && run.writes == []
            && run.world.channels == w.channels
            && run.world.uploads == w.uploads
            && run.videos == CachedVideos(w, subs, limit, clock)
    decreases |subs|
  {
    if subs != [] {
      var user := subs[0];
      assert WarmFor(w, user, clock);
      var res := ResolveIds(w, user, client).value;
      assert res.world.channels == w.channels && res.world.uploads == w.uploads && res.queries == [] && res.writes == [];
      var f := GetLatestUploads(res.world.uploads, Some(user), Some(res.ids.channelId), Some(res.ids.uploadsId), clock, client).value;
      var w' := World(res.world.memo, res.world.channels, f.store);
      assert w'.channels == w.channels && w'.uploads == w.uploads;
      forall i | 0 <= i < |subs[1..]| ensures WarmFor(w', subs[1..][i], clock) {
        assert WarmFor(w, subs[i + 1], clock);
      }
      WarmRunIsQuiet(w', subs[1..], limit, clock, client);
      CachedVideosIgnoresMemo(w', w, subs[1..], limit, clock);
      assert f.uploads == Store.Load(w.uploads, CachePathAt(user, clock)).v;
    }
  }

  /** Running the client again within the same four-hour bucket, in the same
      process or a new one and whatever the API would now answer, lists the
      same videos without a single request or write. */
  lemma SecondRunReplays(
    w: World,
    subs: seq<string>,
    limit: int,
    clock: Clock,
    client: Client,
    memo: map<string, IdPair>,
    later: Client)
    requires GetVideos(w, subs, limit, clock, client).error == None
    ensures var first := GetVideos(w, subs, limit, clock, client);
            var second := GetVideos(World(memo, first.world.channels, first.world.uploads), subs, limit, clock, later);
            && second.error == None
            && second.queries == []
            && second.writes == []
            && second.videos == first.videos
  {
    var first := GetVideos(w, subs, limit, clock, client);
    var w2 := World(memo, first.world.channels, first.world.uploads);
    GetVideosWarms(w, subs, limit, clock, client);
    GetVideosFromCache(w, subs, limit, clock, client);
    assert Warm(w2, subs, clock) by {
      forall i | 0 <= i < |subs| ensures WarmFor(w2, subs[i], clock) {
        assert WarmFor(first.world, subs[i], clock);
      }
    }
    WarmRunIsQuiet(w2, subs, limit, clock, later);
    assert CachedVideos(w2, subs, limit, clock) == CachedVideos(first.world, subs, limit, clock) by {
      CachedVideosIgnoresMemo(w2, first.world, subs, limit, clock);
    }
  }

  lemma {:induction false} CachedVideosIgnoresMemo(w1: World, w2: World, subs: seq<string>, limit: int, clock: Clock)
    requires w1.uploads == w2.uploads
    ensures CachedVideos(w1, subs, limit, clock) == CachedVideos(w2, subs, limit, clock)
    decreases |subs|
  {
    if subs != [] {
      CachedVideosIgnoresMemo(w1, w2, subs[1..], limit, clock);
    }
  }
}

=== FILE: wrappers.dfy ===
/** The two failure-carrying shapes the model needs. */
module Wrappers {

  /** A value that may be absent: Python's `None` next to a real value. */
  datatype Option<+T> = None | Some(value: T)

  /** Either the value an operation returns or the exception it raises instead. */
  datatype Result<+T, +E> = Success(value: T) | Failure(error: E)
}
